=== FILE: README.md ===
# DAWN worker and Beyond Hate header — a Dafny model

This project models two pieces of the Beyond Hate site.

The first is the Cloudflare worker behind the DAWN chatbot (`worker/src/index.js`). It has three parts:

- **The Prompt Composer** (`generateDawnPrompt`). It builds the system prompt from six sections in a fixed order: ethical framework, identity, stage guidance, concern guidance, conversation history, and response requirements. The requirements end with the parent's message, embedded verbatim.
  - The stage picks one entry of a three-entry strategy table. A missing or unknown stage falls back to `contemplation`, except a stage named after an `Object.prototype` member (such as `constructor`): the table is an object literal, so that lookup finds the inherited member and building the prompt throws (see Findings).
  - Each known concern tag adds one block. Unknown tags are dropped, except a tag named after an `Object.prototype` member (such as `toString`), which adds a block whose texts are all `undefined` (see Findings).
  - Only the last six turns of history are rendered.
- **The Rate Limiter** (`checkRateLimit`, `getRateLimitCookie`). It reads the count from the `dawn_count` cookie and writes back the count plus one.
- **The Request Gate** (the `fetch` handler). It answers, in this order:
  - 200 to an `OPTIONS` preflight;
  - 405 to any method other than POST;
  - 429 over quota;
  - 500 when the body is not JSON;
  - 400 without a message;
  - 500 when building the prompt throws because the stage is named after an `Object.prototype` member;
  - 502 when the completion service fails;
  - 200 with the reply, the remaining allowance and a new cookie otherwise.

  Every response carries the CORS headers.

The second is the shared page header (`components/header.js`). It decides which of the five navigation links is active for the current path, and renders the anchors.

Modules, one per file:

| module | what it holds |
|---|---|
| `Optional` | the option type |
| `Strings` | first-occurrence search, `replace` with a string pattern and with `/_/g`, `join`, the `\|\|` default, and a `split` that reads the rendered navigation back into its anchors |
| `Decimal` | digit runs, `parseInt` and number rendering |
| `History` | `slice(-6)` |
| `JsObject` | object-literal lookup with `Object.prototype` names |
| `Strategy` | the stage table |
| `Concerns` | the concern table and its guidance section |
| `Prompt` | the whole prompt |
| `Quota` | the cookie counter |
| `Worker` | the handler |
| `Header` | the navigation |

The prompt's prose is a `Texts` parameter: the framework, the identity, the requirements, the technique sentences, the concern texts, the bullet glyph and `toUpperCase`. Its wording is therefore not fixed by the model, but the place of every piece is. The approach names, headings, separators, cookie format, status codes and error strings are the source's literals.

The completion service is an oracle parameter `upstream: (string, seq<Turn>) -> Reply`, applied to the system prompt and the message list.

The cookie is read as the regular expression `dawn_count=(\d+)` reads it: at the leftmost place where `dawn_count=` is followed by a digit. This means a non-numeric `dawn_count=` earlier in the header is skipped. A loose description would be "the value of the `dawn_count` cookie", which is not what the code does; the model follows the code (`Quota.LaterNumericOccurrenceRead`).

## Model

| member | source | states |
|---|---|---|
| Strategy.ParseStage | worker/src/index.js:88-119 | a string selects a table entry exactly when it is that entry's key (`pre_contemplation`, `contemplation`, `preparation`) |
| Strategy.EffectiveStage | worker/src/index.js:139 | a given non-empty stage is kept; a missing or empty one becomes `contemplation`; the stage used is never empty |
| Strategy.SelectStrategy | worker/src/index.js:140 | a stage's key selects that stage's record, and any other string selects the contemplation record; `Strategy.StageKnown` describes the approach chosen (corrected lookup; as written: `Strategy.SelectStrategyAsWritten`) |
| Strategy.StageTableClosed | worker/src/index.js:88-119 | every stage is reached through its own key, and distinct stages have distinct approaches |
| Strategy.StageFallback | worker/src/index.js:140 | a stage outside the table, the empty string included, selects the same record as `contemplation`, whose approach is `tip_toward_action` |
| Strategy.StageKnown | worker/src/index.js:140 | the selected approach is a stage's approach iff the string names that stage, or the stage is contemplation and the string names none |
| Strategy.SelectStrategyAsWritten | worker/src/index.js:140-148 | the lookup as written fails (TypeError) exactly for the names `Object.prototype` supplies |
| Strategy.ConstructorStageThrowsAsWritten | worker/src/index.js:140-148 | the stage `constructor` makes the as-written builder throw, where the corrected lookup gives the contemplation record |
| Strategy.AsWrittenAgreesOffPrototype | worker/src/index.js:140 | away from the inherited names, the as-written and corrected lookups agree |
| Concerns.ParseTag | worker/src/index.js:55-86 | a tag is known exactly when it is one of the six table keys, and then it names that entry |
| Concerns.Spaced | worker/src/index.js:129 | displaying a tag keeps its length, turns every underscore into a space and keeps every other character |
| Concerns.Block | worker/src/index.js:127-133 | no contract of its own: `Concerns.TagContribution` states that a known tag adds exactly this block, naming the tag with spaces and quoting the record's three texts |
| Concerns.Blocks | worker/src/index.js:124-135 | the loop adds nothing exactly when no tag is in the table; `Concerns.BlocksRenderKnownTags` gives its full contents (corrected lookup; as written: `Concerns.BlocksAsWritten`) |
| Concerns.Guidance | worker/src/index.js:122-136 | the concern section is empty iff there are no concerns (absent or an empty list); otherwise it starts with the section header (corrected lookup; as written: `Concerns.GuidanceAsWritten`) |
| Concerns.KnownTags | worker/src/index.js:125-126 | the known tags are kept once per occurrence: each tag appears as often as its name does in the input |
| Concerns.BlocksRenderKnownTags | worker/src/index.js:125-135 | the blocks are exactly the rendering of the known tags in input order (an independent filter-then-render description) |
| Concerns.BlocksAppend | worker/src/index.js:125-135 | a concern list split in two renders as its two halves, in order |
| Concerns.TagContribution | worker/src/index.js:126-133 | an unknown tag adds nothing; a known tag adds its own block; a duplicated tag adds its block twice |
| Concerns.UnknownTagsDropped | worker/src/index.js:126 | a list of only unknown tags adds no block |
| Concerns.OnlyUnknownTags | worker/src/index.js:123-126 | a non-empty list of only unknown tags still yields the header, and nothing else |
| Concerns.InheritedTagRendersAsWritten | worker/src/index.js:126-133 | as written, a tag such as `toString` yields a block of `undefined` texts, where the corrected lookup yields nothing |
| Concerns.InheritedConcernDropped | worker/src/index.js:122-126 | with the corrected lookup, a list holding one `Object.prototype` name gives the header alone |
| Concerns.InheritedLookup | worker/src/index.js:125 | the as-written lookup finds an inherited member exactly for the names `Object.prototype` supplies |
| Concerns.GuidanceAsWritten | worker/src/index.js:122-136 | the as-written concern section is empty iff there are no concerns (absent or an empty list) |
| Concerns.BlocksAsWritten | worker/src/index.js:124-135 | no contract of its own: the loop as written; `Concerns.BlocksAsWrittenAgree` equates it with `Concerns.Blocks` off the inherited names, and `Concerns.InheritedConcernSectionAsWritten` gives its `undefined` block |
| Concerns.BlocksAsWrittenAgree | worker/src/index.js:124-135 | for concern lists free of inherited names, the as-written blocks are the corrected ones |
| Concerns.InheritedConcernSectionAsWritten | worker/src/index.js:122-133 | as written, the list `[s]` for an inherited name `s` gives the header and a block of `undefined` texts; corrected, the header alone |
| Prompt.StageGuidanceFallbacks | worker/src/index.js:139-151 | an unknown stage keeps its own name on the Stage line but uses the contemplation record; a missing stage behaves as `contemplation`; a missing trust level as `moderate`; an empty stage or trust level behaves as a missing one (corrected lookup; as written: `Prompt.StageGuidanceAsWritten`) |
| Prompt.TechniqueLines | worker/src/index.js:148 | no contract of its own: `Prompt.TechniqueLinesReadBack` states the list splits at its line breaks into one bulleted line per technique, in order |
| Prompt.TechniqueLinesReadBack | worker/src/index.js:148 | when neither bullet nor techniques hold a line break, the joined list splits back into `<bullet> <technique>` lines, one per technique, in order |
| Prompt.StageGuidance | worker/src/index.js:138-151 | the stage section opens with its heading and the Stage line showing the upper-cased stage used; `Prompt.StageGuidanceFallbacks` describes the record and trust level (corrected lookup; as written: `Prompt.StageGuidanceAsWritten`) |
| Prompt.StageLineShowsCallerStage | worker/src/index.js:144 | the Stage line shows the caller's stage string, upper-cased, whatever record it selects |
| Prompt.Speaker | worker/src/index.js:158 | a turn is labelled Parent iff its role is `user`, Dawn otherwise |
| Prompt.ConversationContext | worker/src/index.js:153-160 | the history section is empty iff the history is, and otherwise opens with its header; `Prompt.ContextRendersWindow` gives its contents |
| Prompt.ContextDependsOnlyOnWindow | worker/src/index.js:154-160 | histories with the same last six turns render the same history section |
| Prompt.ContextRendersWindow | worker/src/index.js:154-160 | the history section contains the rendering of exactly the windowed turns |
| Prompt.RenderTurns | worker/src/index.js:157-159 | no contract of its own: `Prompt.RenderTurnsAppend` and `Prompt.ContextRendersWindow` state it renders one line per turn, in order |
| Prompt.RenderTurnsAppend | worker/src/index.js:157-159 | turns render piecewise, one line per turn |
| Prompt.Footer | worker/src/index.js:162-180 | the requirements section ends with the message, followed only by the fixed closing text |
| Prompt.Preamble | worker/src/index.js:182 | the sections before the requirements begin with the framework and the identity |
| Prompt.Compose | worker/src/index.js:182 | the prompt starts with the framework and the identity, and ends with the requirements section |
| Prompt.ComposeEndsWithMessage | worker/src/index.js:177-182 | the parent's message sits verbatim just before the fixed closing text |
| Prompt.ComposeDeterminesMessage | worker/src/index.js:177-182 | two messages giving the same prompt are the same message |
| Prompt.ComposeShowsWindow | worker/src/index.js:153-182 | the prompt contains the rendering of the windowed turns |
| Prompt.ComposeDependsOnlyOnWindow | worker/src/index.js:153-182 | turns older than the last six never affect the prompt |
| Prompt.ComposeShowsSections | worker/src/index.js:182 | the prompt contains the stage guidance immediately followed by the concern guidance |
| Prompt.StageGuidanceAsWritten | worker/src/index.js:139-151 | the as-written stage section fails (TypeError) exactly when the stage used is an `Object.prototype` name |
| Prompt.ComposeAsWritten | worker/src/index.js:122-182 | the as-written prompt builder fails exactly when the stage used is an `Object.prototype` name |
| Prompt.ComposeAsWrittenAgrees | worker/src/index.js:122-182 | for a profile whose stage and concerns avoid the inherited names, the as-written builder returns the corrected prompt |
| Prompt.ComposeAsWrittenShowsConcerns | worker/src/index.js:122-182 | a prompt the as-written builder returns contains its as-written concern section |
| Prompt.InheritedConcernInPromptAsWritten | worker/src/index.js:126-133 | as written, a concern such as `toString` puts a block of `undefined` texts into the prompt |
| History.Window | worker/src/index.js:157 | the window holds the last `min(6, n)` turns of the history, in order |
| History.ShortHistoryKept | worker/src/index.js:157 | a history of at most six turns is kept whole |
| History.WindowEmptyIff | worker/src/index.js:155-157 | the window is empty iff the history is |
| History.WindowIdempotent | worker/src/index.js:157 | windowing a window changes nothing |
| History.WindowIndex | worker/src/index.js:157 | turn `i` of a window of `w` turns is turn `n - w + i` of a history of `n` turns |
| History.WindowExtend | worker/src/index.js:157 | windowing a history extended by one turn equals extending the previous window and windowing again |
| History.WindowDropsPrefix | worker/src/index.js:157 | whatever precedes the last six turns is discarded |
| Decimal.Render | worker/src/index.js:196 | a count renders as a non-empty digit string with no leading zero |
| Decimal.Value | worker/src/index.js:189 | no contract of its own: `Decimal.ValueOfRender` states `parseInt` inverts rendering, and `Decimal.DigitRunOfDigits` which digits it reads |
| Decimal.ValueOfRender | worker/src/index.js:189-196 | `parseInt` of a rendered count gives the count back |
| Decimal.DigitRun | worker/src/index.js:188 | `\d+` captures a prefix of digits that stops at a non-digit or at the end |
| Decimal.DigitRunOfDigits | worker/src/index.js:188 | the captured run is exactly the digits before the first non-digit |
| Quota.FindMatch | worker/src/index.js:188 | the scan returns the leftmost place where `dawn_count=` is followed by a digit, or reports that there is none |
| Quota.CountIn | worker/src/index.js:188-190 | a header with no match reads as 0; otherwise it reads as the value of the digit run at the leftmost match |
| Quota.Admitted | worker/src/index.js:219 | no contract of its own: `Worker.Handle` and `Worker.OverQuotaNeverCallsUpstream` state that a POST whose count is not below the limit gets 429 and never reaches the service |
| Quota.ReadCount | worker/src/index.js:187 | a request without a Cookie header reads as 0 |
| Quota.SetCookie | worker/src/index.js:193-197 | the `Set-Cookie` value written for a count `c` reads back, through the `dawn_count=(\d+)` match, as `c + 1` |
| Quota.PairReadsBack | worker/src/index.js:188-196 | a `dawn_count=<n>` pair followed by non-digit text reads back as `n` |
| Quota.SetCookieReadsBack | worker/src/index.js:193-196 | the cookie written for a count `c` reads as `c + 1`, both as the browser returns it and as the whole header value |
| Quota.NonNumericReadsZero | worker/src/index.js:187-189 | a header with no numeric match, such as `dawn_count=abc` or the empty header, reads as 0 |
| Quota.LaterNumericOccurrenceRead | worker/src/index.js:188 | a non-numeric first occurrence is skipped, and a later numeric one is read |
| Worker.HasMessage | worker/src/index.js:233 | no contract of its own: `Worker.Handle` states a screened, parsed POST gets 400 exactly when its message is missing or empty |
| Worker.UpstreamMessages | worker/src/index.js:248-264 | the message list is the windowed history followed by the current message as a `user` turn: at most seven turns |
| Worker.Plan | worker/src/index.js:202-264 | the service is called iff the request is an admitted POST with a parsed body and a non-empty message, with the read count and the windowed messages; any other request is answered at once, with the CORS headers, never 502, and 200 only for a preflight |
| Worker.Finish | worker/src/index.js:282-308 | a failed reply gives 502 with the service's status; a completed one gives 200 with its text, `limit - count - 1`, and the new cookie as the last header |
| Worker.Outcome | worker/src/index.js:267-280 | the service is consulted exactly when the decision is to call it |
| Worker.Handle | worker/src/index.js:200-320 | CORS headers always; preflight gives an empty 200; 405, 429, 500 and 400 each happen exactly under their condition; without a service call the answer is the ladder's |
| Worker.HandleAfterCall | worker/src/index.js:282-308 | 502 iff the service was called and failed, carrying its status; 200 iff preflight or the service completed |
| Worker.AnswerContents | worker/src/index.js:294-308 | an answer carries the service's text, the allowance left after this message (never negative) and the cookie for the admitted count |
| Worker.OverQuotaNeverCallsUpstream | worker/src/index.js:216-227 | an over-quota POST gets 429 whatever its body, and the service is never consulted |
| Worker.SuccessAdvancesCounter | worker/src/index.js:298-306 | after an answer, the next request reads one more than this one, and allowance plus count plus one equals the limit |
| Worker.SameWindowForPromptAndMessages | worker/src/index.js:241-264 | the prompt's history and the upstream message list use the same windowed turns |
| Worker.PlanPrompt | worker/src/index.js:241-245 | the system prompt is composed from `profile \|\| {}`, the message and `conversationHistory \|\| []` |
| Worker.PlanDependsOnlyOnWindow | worker/src/index.js:241-264 | requests that differ only in turns older than the window get the same decision |
| Worker.PreparationSideEffectsExample | worker/src/index.js:241-264 | a preparation-stage profile with the side-effects concern and no history gets the facilitate-action record, the side-effects block and a one-turn message list, and the prompt contains that stage guidance followed by that concern guidance |
| Worker.PreparationStage | worker/src/index.js:139-151 | the preparation stage with no trust level gives the facilitate-action record at trust `moderate` |
| Worker.SideEffectsGuidance | worker/src/index.js:122-136 | the `side_effects` concern gives the header and its one block |
| Worker.HandleAsWritten | worker/src/index.js:200-320 | the handler as written keeps the CORS headers, answers as the corrected handler wherever the service is not consulted, and answers 500 with the TypeError's message when the stage used is an `Object.prototype` name |
| Worker.HandleAsWrittenAgrees | worker/src/index.js:200-320 | for bodies whose profile avoids the inherited names, the handler as written answers as the corrected one |
| Worker.HandleAsWritten500 | worker/src/index.js:200-320 | as written, 500 happens exactly for an unparseable body, or a message whose stage used is an `Object.prototype` name, on an admitted POST |
| Worker.ConstructorStageAnswers500AsWritten | worker/src/index.js:140-148 | an admitted POST with a message and stage `constructor` gets 500 as written, where the corrected handler calls the service |
| Header.StrippedHrefs | components/header.js:12-20 | the four section hrefs strip to `/framework/`, `/applications/hate-response`, `/applications/vaccine-hesitancy` and `/about` |
| Header.Stripped | components/header.js:12 | no contract of its own: `Header.StripHtml` and `Header.StrippedHrefs` state what the two first-occurrence replaces leave of each href |
| Header.StripHtml | components/header.js:12 | an href of the form `<page>.html`, with no `x` or `.` in the page, strips to the page |
| Header.IsActive | components/header.js:8-13 | no contract of its own: `Header.ActiveIff`, `Header.AtMostOneActive` and `Header.SectionPathActive` state which link is active for each path |
| Header.ActiveIff | components/header.js:8-21 | Home is active iff the path is `/`, `/index.html` or empty; each other link is active iff its stripped href is a prefix of the path |
| Header.HomeActiveExamples | components/header.js:9-10 | Home is active for the empty path but not for `/home` |
| Header.AboutActiveExamples | components/header.js:12 | the About link is active for `/about` and for `/about.html` |
| Header.FrameworkActiveExamples | components/header.js:12 | the Framework link is active for `/framework/team` but not for `/framework`, which lacks the trailing slash |
| Header.AtMostOneActive | components/header.js:8-21 | whatever the path, at most one link is active |
| Header.SectionPathActive | components/header.js:8-21 | a path under a section makes that section's link active and no other |
| Header.AnchorHtml | components/header.js:24 | no contract of its own: `Header.AnchorRoundTrip` states an anchor reads back as its link and active flag |
| Header.ParseAnchor | components/header.js:23-24 | whatever the anchor reader accepts is exactly the anchor template applied to what it returns |
| Header.AnchorRoundTrip | components/header.js:23-24 | an anchor reads back as its link and its active flag |
| Header.NavHtml | components/header.js:23-25 | the navigation opens with the Home anchor, marked active iff the path is a home path, followed by the separator; `Header.NavReadsBack` gives all five anchors |
| Header.NavReadsBack | components/header.js:23-25 | the navigation splits at the separator into five anchors, each reading back as its link with the flag `isActive` computes for it |
| Header.NavMarksAtMostOne | components/header.js:23-25 | the rendered navigation marks at most one anchor active |
| Strings.IndexOf | components/header.js:12 | the index found is the leftmost occurrence at or after the start, and none means no occurrence |
| Strings.ReplaceFirst | components/header.js:12 | `replace` with a string pattern replaces only the leftmost occurrence, and returns the text unchanged when there is none |
| Strings.ReplaceChar | worker/src/index.js:129 | the global replace of one character changes exactly the occurrences of that character |
| Strings.Fallback | worker/src/index.js:139 | `a \|\| d` on a possibly missing string: a present non-empty value is kept, and a missing or empty one gives the default |
| Strings.SplitJoin | components/header.js:25 | splitting joined items at the separator gives the items back when none holds the separator's first character |

## Left out

- The HTTP call to the completion service is an oracle parameter. The request's headers, the model name, `max_tokens` and the API key are not modelled.
- The shape of the service's JSON reply is not modelled: the model's `Completed` always carries text. In the source, a reply that is not JSON, or whose `content` is missing or empty, throws and answers 500. A reply whose `content[0]` has no `text` does not throw: it answers 200 with the new cookie, and the `response` field is dropped from the body because it is `undefined`.
- `parseInt(env.RATE_LIMIT || '10')` is not modelled: the limit is a `nat` parameter. A non-numeric setting (NaN) is not covered.
- JSON values of the wrong type are not modelled, for example a non-string message, a non-array history, or a history entry without role or content. Fields are either absent or well-typed.
- JavaScript number precision is not modelled: counts are unbounded integers. A cookie count beyond 2^53 would lose precision in the source.
- The prose of the prompt (framework, identity, requirements, technique sentences, concern texts) is the `Texts` parameter. So is `toUpperCase`, as `texts.upper`.
- Prompt.Compose: the contract fixes the first two sections (framework, identity) and the last (the requirements with the message). The middle sections are placed by `Prompt.ComposeShowsSections` (stage then concern guidance) and `Prompt.ComposeShowsWindow` (history), not by a single ensures. It uses the corrected lookups; the builder as written, which throws on an inherited stage and renders inherited concerns, is `Prompt.ComposeAsWritten`.
- Worker.Plan: builds the prompt with the corrected lookups. The as-written failure on an inherited stage is modelled separately by `Worker.HandleAsWritten`.
- Worker.Handle: answers with the corrected lookups, so an inherited stage such as `constructor` reaches the service. The handler as written, which answers 500 there, is `Worker.HandleAsWritten`; the two agree off the inherited names (`Worker.HandleAsWrittenAgrees`).
- The 429 body names 10 messages whatever the configured limit. This is modelled literally (`Worker.QuotaNotice`) and not treated as a bug.
- The `console.error` logging is not modelled.
- The body of the 500 response carries the parse error's message as an opaque string. The TypeError of an inherited stage is modelled by `Worker.HandleAsWritten`, with V8's message text. Other exceptions inside the `try` are not modelled.
- For `header.js`, reading `window.location.pathname` becomes the `path` parameter. The `headerHTML` wrapper and the `insertAdjacentHTML` call into the page are not modelled: the model stops at `navHTML`.

## Findings

| source | as written | input that shows it | evidently intended | confidence | as-written member | corrected member |
|---|---|---|---|---|---|---|
| worker/src/index.js:140-148 | `stageStrategies[stage] \|\| stageStrategies.contemplation` on an object literal finds `Object.prototype` members, which are truthy, so `strategy.techniques.map` throws | profile stage `constructor` gives 500 "Internal server error" | an unknown stage falls back to the contemplation strategy | not executed | Worker.ConstructorStageAnswers500AsWritten | Strategy.StageFallback |
| worker/src/index.js:126-133 | `if (concernResponses[concern])` passes for inherited members, and their fields render as `undefined` | concern `toString` adds a block whose validation, evidence and redirect are all `undefined` | an unknown concern tag contributes nothing | not executed | Prompt.InheritedConcernInPromptAsWritten | Concerns.UnknownTagsDropped |

=== FILE: concerns.dfy ===
/** The Concern Resolver: the six-entry table of parental concerns and the guidance section
    built from the profile's concern tags. Unknown tags are dropped without error; every
    occurrence of a known tag, duplicates included, contributes one block, in input order. */
module Concerns {
  import opened Optional
  import opened Strings
  import opened JsObject

  datatype ConcernTag =
    | AutismFear
    | SideEffects
    | NaturalImmunity
    | IngredientFears
    | DistrustInstitutions
    | TooManyVaccines

  /** The three texts of a table entry; their wording is prose supplied by the caller. */
  datatype ConcernRecord = ConcernRecord(validation: string, evidence: string, redirect: string)

  const GuidanceHeader: string := "\nCONCERN-SPECIFIC GUIDANCE:\n"

  function TagName(t: ConcernTag): string
  {
    match t
    case AutismFear => "autism_fear"
    case SideEffects => "side_effects"
    case NaturalImmunity => "natural_immunity"
    case IngredientFears => "ingredient_fears"
    case DistrustInstitutions => "distrust_institutions"
    case TooManyVaccines => "too_many_vaccines"
  }

  /** Own-key lookup in the concern table. */
  function ParseTag(s: string): (r: Option<ConcernTag>)
    ensures r.Some? ==> TagName(r.value) == s
    ensures forall t :: TagName(t) == s ==> r == Some(t)
  {
    if s == "autism_fear" then Some(AutismFear)
    else if s == "side_effects" then Some(SideEffects)
    else if s == "natural_immunity" then Some(NaturalImmunity)
    else if s == "ingredient_fears" then Some(IngredientFears)
    else if s == "distrust_institutions" then Some(DistrustInstitutions)
    else if s == "too_many_vaccines" then Some(TooManyVaccines)
    else None
  }

  /** `concern.replace(/_/g, ' ')`: the tag as the prompt displays it. */
  function Spaced(name: string): (r: string)
    ensures |r| == |name| && '_' !in r
    ensures forall i :: 0 <= i < |name| ==> r[i] == if name[i] == '_' then ' ' else name[i]
  {
    ReplaceChar(name, '_', ' ')
  }

  /** The guidance block for one tag. */
  function Block(name: string, rec: ConcernRecord): string
  {
    "\nFor " + Spaced(name) + ":\n- Validation: \"" + rec.validation + "\"\n- Evidence: \""
      + rec.evidence + "\"\n- Redirect: \"" + rec.redirect + "\"\n"
  }

  /** What one input tag contributes: its block when the table knows it, nothing otherwise. */
  function TagBlock(records: ConcernTag -> ConcernRecord, s: string): string
  {
    match ParseTag(s)
    case None => ""
    case Some(t) => Block(s, records(t))
  }

  /** No tag of `cs` is in the table. */
  predicate NoneKnown(cs: seq<string>)
  {
    forall i :: 0 <= i < |cs| ==> ParseTag(cs[i]).None?
  }

  /** The loop over `profile.concerns`, appending one block per known tag: nothing at all
      exactly when no tag is known. */
  function Blocks(records: ConcernTag -> ConcernRecord, cs: seq<string>): (r: string)
    ensures r == "" <==> NoneKnown(cs)
  {
    if |cs| == 0 then "" else TagBlock(records, cs[0]) + Blocks(records, cs[1..])
  }

  /** The concern section: empty when the profile has no concerns (absent or an empty list),
      otherwise the header followed by the blocks. */
  function Guidance(records: ConcernTag -> ConcernRecord, concerns: Option<seq<string>>): (r: string)
    ensures r == "" <==> concerns.None? || |concerns.value| == 0
    ensures concerns.Some? && |concerns.value| > 0 ==> GuidanceHeader <= r
  {
    if concerns.Some? && |concerns.value| > 0 then GuidanceHeader + Blocks(records, concerns.value) else ""
  }

  // ---------------------------------------------------------------------------------------
  // An independent description: first keep the known tags, then render each of them.

  /** The known tags of `cs`, in input order, one per occurrence. */
  function KnownTags(cs: seq<string>): (ks: seq<ConcernTag>)
    ensures |ks| <= |cs|
    ensures forall t :: multiset(ks)[t] == multiset(cs)[TagName(t)]
  {
    if |cs| == 0 then []
    else
      assert cs == [cs[0]] + cs[1..];
      match ParseTag(cs[0])
      case None => KnownTags(cs[1..])
      case Some(t) => [t] + KnownTags(cs[1..])
  }

  function RenderTags(records: ConcernTag -> ConcernRecord, ks: seq<ConcernTag>): string
  {
    if |ks| == 0 then "" else Block(TagName(ks[0]), records(ks[0])) + RenderTags(records, ks[1..])
  }

  /** The blocks are exactly the rendering of the known tags, in input order. */
  lemma {:induction false} BlocksRenderKnownTags(records: ConcernTag -> ConcernRecord, cs: seq<string>)
    ensures Blocks(records, cs) == RenderTags(records, KnownTags(cs))
    decreases |cs|
  {
    if |cs| > 0 {
      BlocksRenderKnownTags(records, cs[1..]);
      match ParseTag(cs[0])
      case None =>
      case Some(t) =>
        assert ([t] + KnownTags(cs[1..]))[1..] == KnownTags(cs[1..]);
    }
  }

  /** Concern lists render piecewise: a list split in two renders as its halves in order. */
  lemma {:induction false} BlocksAppend(records: ConcernTag -> ConcernRecord, a: seq<string>, b: seq<string>)
    ensures Blocks(records, a + b) == Blocks(records, a) + Blocks(records, b)
    decreases |a|
  {
    if |a| > 0 {
      assert (a + b)[0] == a[0];
      assert (a + b)[1..] == a[1..] + b;
      BlocksAppend(records, a[1..], b);
    } else {
      assert a + b == b;
    }
  }

  /** A known tag contributes its own block, named with spaces; an unknown tag contributes
      nothing, so a duplicated known tag repeats its block. */
  lemma TagContribution(records: ConcernTag -> ConcernRecord, s: string)
    ensures ParseTag(s).None? ==> Blocks(records, [s]) == ""
    ensures forall t :: TagName(t) == s ==> Blocks(records, [s]) == Block(TagName(t), records(t))
    ensures Blocks(records, [s, s]) == Blocks(records, [s]) + Blocks(records, [s])
  {
    assert [s, s] == [s] + [s];
    BlocksAppend(records, [s], [s]);
  }

  /** A list of only unknown tags contributes no block. */
  lemma {:induction false} UnknownTagsDropped(records: ConcernTag -> ConcernRecord, cs: seq<string>)
    requires forall i :: 0 <= i < |cs| ==> ParseTag(cs[i]).None?
    ensures Blocks(records, cs) == ""
    decreases |cs|
  {
    if |cs| > 0 {
      assert ParseTag(cs[0]).None?;
      UnknownTagsDropped(records, cs[1..]);
    }
  }

  /** A non-empty list of only unknown tags still produces the header, and nothing else. */
  lemma OnlyUnknownTags(records: ConcernTag -> ConcernRecord, cs: seq<string>)
    requires |cs| > 0
    requires forall i :: 0 <= i < |cs| ==> ParseTag(cs[i]).None?
    ensures Guidance(records, Some(cs)) == GuidanceHeader
  {
    UnknownTagsDropped(records, cs);
  }

  // ---------------------------------------------------------------------------------------
  // The lookup as the worker writes it: `concernResponses` is an object literal, so a tag named
  // after an `Object.prototype` member passes the `if (concernResponses[concern])` test.

  function TagLookupAsWritten(s: string): Lookup<ConcernTag>
  {
    match ParseTag(s)
    case Some(t) => Own(t)
    case None => if s in InheritedNames then Inherited else Missing
  }

  /** Each field of an inherited member is `undefined`, which the template renders literally. */
  const UndefinedRecord: ConcernRecord := ConcernRecord("undefined", "undefined", "undefined")

  function TagBlockAsWritten(records: ConcernTag -> ConcernRecord, s: string): string
  {
    match TagLookupAsWritten(s)
    case Own(t) => Block(s, records(t))
    case Inherited => Block(s, UndefinedRecord)
    case Missing => ""
  }

  /** The tag "toString" gets a block of "undefined" texts as written, where an unknown tag
      should contribute nothing. */
  lemma InheritedTagRendersAsWritten(records: ConcernTag -> ConcernRecord, s: string)
    requires s in InheritedNames
    ensures TagBlockAsWritten(records, s) == Block(s, UndefinedRecord)
    ensures TagBlockAsWritten(records, s) != TagBlock(records, s) == ""
  {
    assert ParseTag(s).None? by { InheritedNamesUnknown(s); }
    assert |Block(s, UndefinedRecord)| > 0;
  }

  /** The loop over `profile.concerns` with the lookup as written. */
  function BlocksAsWritten(records: ConcernTag -> ConcernRecord, cs: seq<string>): string
  {
    if |cs| == 0 then "" else TagBlockAsWritten(records, cs[0]) + BlocksAsWritten(records, cs[1..])
  }

  /** The concern section as written: the header, then the as-written blocks. */
  function GuidanceAsWritten(records: ConcernTag -> ConcernRecord, concerns: Option<seq<string>>): (r: string)
    ensures r == "" <==> concerns.None? || |concerns.value| == 0
  {
    if concerns.Some? && |concerns.value| > 0 then GuidanceHeader + BlocksAsWritten(records, concerns.value) else ""
  }

  /** No concern is named after an `Object.prototype` member. */
  predicate NoInheritedNames(cs: seq<string>)
  {
    forall i :: 0 <= i < |cs| ==> cs[i] !in InheritedNames
  }

  /** Away from the inherited names, the as-written blocks are the corrected ones. */
  lemma {:induction false} BlocksAsWrittenAgree(records: ConcernTag -> ConcernRecord, cs: seq<string>)
    requires NoInheritedNames(cs)
    ensures BlocksAsWritten(records, cs) == Blocks(records, cs)
    decreases |cs|
  {
    if |cs| > 0 {
      assert cs[0] !in InheritedNames;
      BlocksAsWrittenAgree(records, cs[1..]);
    }
  }

  /** A concern list holding one tag the lookup finds on the prototype, such as `["toString"]`,
      gives, as written, the header and a block of `undefined` texts; corrected, the header alone. */
  lemma InheritedConcernSectionAsWritten(records: ConcernTag -> ConcernRecord, s: string)
    requires TagLookupAsWritten(s).Inherited?
    ensures GuidanceAsWritten(records, Some([s])) == GuidanceHeader + Block(s, UndefinedRecord)
    ensures Guidance(records, Some([s])) == GuidanceHeader
  {
    InheritedBlockAsWritten(records, s);
    InheritedConcernDropped(records, s);
  }

  /** Corrected, such a tag is unknown, so its list gives the header alone. */
  lemma InheritedConcernDropped(records: ConcernTag -> ConcernRecord, s: string)
    requires TagLookupAsWritten(s).Inherited?
    ensures Guidance(records, Some([s])) == GuidanceHeader
  {
    var cs := [s];
    assert ParseTag(cs[0]).None?;
    OnlyUnknownTags(records, cs);
  }

  /** The as-written block of such a tag is the `undefined` block. */
  lemma InheritedBlockAsWritten(records: ConcernTag -> ConcernRecord, s: string)
    requires TagLookupAsWritten(s).Inherited?
    ensures BlocksAsWritten(records, [s]) == Block(s, UndefinedRecord)
  {
    var block := TagBlockAsWritten(records, s);
    assert block == Block(s, UndefinedRecord);
    assert BlocksAsWritten(records, [s]) == block + BlocksAsWritten(records, []);
    assert block + "" == block;
  }

  /** The as-written lookup finds exactly the inherited names on the prototype. */
  lemma InheritedLookup(s: string)
    ensures TagLookupAsWritten(s).Inherited? <==> s in InheritedNames
  {
    if s in InheritedNames {
      InheritedNamesUnknown(s);
    }
  }

  lemma InheritedNamesUnknown(s: string)
    requires s in InheritedNames
    ensures ParseTag(s).None?
  {
  }
}

=== FILE: decimal.dfy ===
/** Decimal digit strings: the `\d+` of the cookie pattern, `parseInt` of it, and the
    rendering of a count inside a template literal. */
module Decimal {

  predicate IsDigit(c: char)
  {
    '0' <= c <= '9'
  }

  predicate AllDigits(s: string)
  {
    forall i :: 0 <= i < |s| ==> IsDigit(s[i])
  }

  function DigitValue(c: char): (d: nat)
    requires IsDigit(c)
    ensures d < 10
  {
    c as int - '0' as int
  }

  function DigitChar(d: nat): (c: char)
    requires d < 10
    ensures IsDigit(c) && DigitValue(c) == d
  {
    ('0' as int + d) as char
  }

  /** `parseInt` of a run of decimal digits, most significant first; the empty run is 0. */
  function Value(ds: string): nat
    requires AllDigits(ds)
    decreases |ds|
  {
    if |ds| == 0 then 0 else Value(ds[..|ds| - 1]) * 10 + DigitValue(ds[|ds| - 1])
  }

  /** The decimal numeral of `n`, as `${n}` renders it: non-empty, digits only, no leading zero. */
  function Render(n: nat): (r: string)
    ensures |r| > 0 && AllDigits(r)
    ensures n == 0 <==> r == "0"
    ensures r[0] == '0' ==> n == 0
    decreases n
  {
    if n < 10 then [DigitChar(n)] else Render(n / 10) + [DigitChar(n % 10)]
  }

  /** Reading a rendered numeral gives the number back. */
  lemma {:induction false} ValueOfRender(n: nat)
    ensures Value(Render(n)) == n
    decreases n
  {
    if n >= 10 {
      ValueOfRender(n / 10);
      var r := Render(n);
      assert r[..|r| - 1] == Render(n / 10);
    }
  }

  /** The greedy digit run at the front of `s`: what `\d+` captures there. */
  function DigitRun(s: string): (r: string)
    ensures r <= s && AllDigits(r)
    ensures |r| < |s| ==> !IsDigit(s[|r|])
  {
    if |s| > 0 && IsDigit(s[0]) then [s[0]] + DigitRun(s[1..]) else ""
  }

  /** A digit run stops at the first non-digit. */
  lemma {:induction false} DigitRunOfDigits(ds: string, rest: string)
    requires AllDigits(ds)
    requires |rest| > 0 ==> !IsDigit(rest[0])
    ensures DigitRun(ds + rest) == ds
    decreases |ds|
  {
    if |ds| > 0 {
      assert (ds + rest)[1..] == ds[1..] + rest;
      DigitRunOfDigits(ds[1..], rest);
      assert [ds[0]] + ds[1..] == ds;
    } else {
      assert ds + rest == rest;
    }
  }
}

=== FILE: header.dfy ===
/** The shared page header's navigation: which of the five fixed links is marked active for
    the current path, and the anchors rendered for them. The path is a parameter and the
    rendered navigation a result; inserting it into the page is left to the browser. */
module Header {
  import opened Optional
  import opened Strings

  datatype Link = Link(href: string, caption: string)

  /** `navLinks`, in display order. */
  const NavLinks: seq<Link> := [
    Link("/", "Home"),
    Link("/framework/", "Framework"),
    Link("/applications/hate-response.html", "Hate Response"),
    Link("/applications/vaccine-hesitancy.html", "Vaccine Hesitancy"),
    Link("/about.html", "About")
  ]

  /** The paths that count as the home page. */
  predicate IsHomePath(path: string)
  {
    path == "/" || path == "/index.html" || path == ""
  }

  /** `href.replace('/index.html', '').replace('.html', '')`: each replaces its first occurrence. */
  function Stripped(href: string): string
  {
    ReplaceFirst(ReplaceFirst(href, "/index.html", ""), ".html", "")
  }

  /** `isActive(href)` for the current path. */
  predicate IsActive(path: string, href: string)
  {
    if href == "/" || href == "/index.html" then IsHomePath(path) else Stripped(href) <= path
  }

  /** The stripped hrefs of the four links after Home, in order. */
  const SectionPrefixes: seq<string> := [
    "/framework/", "/applications/hate-response", "/applications/vaccine-hesitancy", "/about"
  ]

  /** The four section hrefs strip to `SectionPrefixes`. */
  lemma StrippedHrefs()
    ensures forall i :: 1 <= i < |NavLinks| ==> Stripped(NavLinks[i].href) == SectionPrefixes[i - 1]
  {
    forall i | 1 <= i < |NavLinks|
      ensures Stripped(NavLinks[i].href) == SectionPrefixes[i - 1]
    {
      var href := NavLinks[i].href;
      if i == 1 {
        assert href == "/framework/";
        StrippedFramework();
      } else if i == 2 {
        assert href == "/applications/hate-response.html";
        StrippedHate();
      } else if i == 3 {
        assert href == "/applications/vaccine-hesitancy.html";
        StrippedVaccine();
      } else {
        assert href == "/about.html";
        StrippedAbout();
      }
    }
  }

  lemma StrippedHate()
    ensures Stripped("/applications/hate-response.html") == "/applications/hate-response"
  {
    StrippedPage("/applications/hate-response", "/applications/hate-response.html");
  }

  lemma StrippedVaccine()
    ensures Stripped("/applications/vaccine-hesitancy.html") == "/applications/vaccine-hesitancy"
  {
    StrippedPage("/applications/vaccine-hesitancy", "/applications/vaccine-hesitancy.html");
  }

  lemma StrippedAbout()
    ensures Stripped("/about.html") == "/about"
  {
    StrippedPage("/about", "/about.html");
  }

  lemma StrippedFramework()
    ensures Stripped("/framework/") == "/framework/"
  {
    var index, html := "/index.html", ".html";
    assert index[5] == 'x';
    ReplaceFirstAbsent("/framework/", index, 5, "");
    ReplaceFirstAbsent("/framework/", html, 0, "");
  }

  lemma StrippedPage(page: string, href: string)
    requires 'x' !in page && '.' !in page && href == page + ".html"
    ensures Stripped(href) == page
  {
    StripHtml(page);
  }

  /** A page href without `x` and with `.html` only at its end loses exactly that suffix. */
  lemma StripHtml(page: string)
    requires 'x' !in page && '.' !in page
    ensures Stripped(page + ".html") == page
  {
    var index := "/index.html";
    assert index[5] == 'x';
    assert 'x' !in page + ".html";
    ReplaceFirstAbsent(page + ".html", index, 5, "");
    ReplaceFirstAfter(page, ".html", "", "");
    assert page + ".html" + "" == page + ".html";
    assert page + "" + "" == page;
  }

  // ---------------------------------------------------------------------------------------
  // Which link is active

  /** Home is active exactly on the home paths; each other link exactly when its stripped
      href begins the path. */
  lemma ActiveIff(path: string)
    ensures IsActive(path, NavLinks[0].href) <==> IsHomePath(path)
    ensures forall i :: 1 <= i < |NavLinks| ==>
      (IsActive(path, NavLinks[i].href) <==> SectionPrefixes[i - 1] <= path)
  {
    StrippedHrefs();
    forall i | 1 <= i < |NavLinks|
      ensures NavLinks[i].href != "/" && NavLinks[i].href != "/index.html"
    {
      var href := NavLinks[i].href;
      if i == 1 {
        assert href == "/framework/";
      } else if i == 2 {
        assert href == "/applications/hate-response.html";
      } else if i == 3 {
        assert href == "/applications/vaccine-hesitancy.html";
      } else {
        assert href == "/about.html";
      }
    }
  }

  /** Where the section prefixes part ways: `/framework/` from the others at index 1,
      `/about` from the two applications at index 2, the two applications at index 14. None of
      them has an `i` at index 1, as `/index.html` does. */
  lemma SectionFacts()
    ensures |SectionPrefixes[0]| > 2 && SectionPrefixes[0][1] == 'f'
    ensures |SectionPrefixes[1]| > 14 && SectionPrefixes[1][1] == 'a' && SectionPrefixes[1][2] == 'p'
      && SectionPrefixes[1][14] == 'h'
    ensures |SectionPrefixes[2]| > 14 && SectionPrefixes[2][1] == 'a' && SectionPrefixes[2][2] == 'p'
      && SectionPrefixes[2][14] == 'v'
    ensures |SectionPrefixes[3]| > 2 && SectionPrefixes[3][1] == 'a' && SectionPrefixes[3][2] == 'b'
  {
  }

  /** Two strings that differ at `k` cannot both begin the same path. */
  lemma DivergentPrefixes(p: string, q: string, k: nat, path: string)
    requires k < |p| && k < |q| && p[k] != q[k] && p <= path
    ensures !(q <= path)
  {
    assert path[k] == p[k];
  }

  /** No section prefix begins a home path. */
  lemma HomeExcludesSections(path: string, b: nat)
    requires IsHomePath(path) && b < |SectionPrefixes|
    ensures !(SectionPrefixes[b] <= path)
  {
    SectionFacts();
    if path == "/index.html" {
      assert path[1] == 'i';
      DivergentPrefixes(path, SectionPrefixes[b], 1, path);
    }
  }

  /** No path begins with two different section prefixes. */
  lemma SectionsExclusive(path: string, a: nat, b: nat)
    requires a < b < |SectionPrefixes| && SectionPrefixes[a] <= path
    ensures !(SectionPrefixes[b] <= path)
  {
    SectionFacts();
    var p, q := SectionPrefixes[a], SectionPrefixes[b];
    if a == 0 {
      DivergentPrefixes(p, q, 1, path);
    } else if b == 3 {
      DivergentPrefixes(p, q, 2, path);
    } else {
      DivergentPrefixes(p, q, 14, path);
    }
  }

  /** `/about.html` is active for `/about` and for itself. */
  lemma AboutActiveExamples()
    ensures IsActive("/about", "/about.html") && IsActive("/about.html", "/about.html")
  {
    StrippedAbout();
  }

  /** `/framework/` is active for every path under it, but not for `/framework`. */
  lemma FrameworkActiveExamples()
    ensures IsActive("/framework/team", "/framework/") && !IsActive("/framework", "/framework/")
  {
    StrippedFramework();
  }

  /** Home is active only for the exact home paths. */
  lemma HomeActiveExamples()
    ensures IsActive("", "/") && !IsActive("/home", "/")
  {
  }

  /** At most one link is marked active, whatever the path. */
  lemma AtMostOneActive(path: string)
    ensures forall i, j :: 0 <= i < j < |NavLinks| && IsActive(path, NavLinks[i].href) ==>
      !IsActive(path, NavLinks[j].href)
  {
    ActiveIff(path);
    forall i, j | 0 <= i < j < |NavLinks| && IsActive(path, NavLinks[i].href)
      ensures !IsActive(path, NavLinks[j].href)
    {
      if i == 0 {
        HomeExcludesSections(path, j - 1);
      } else {
        SectionsExclusive(path, i - 1, j - 1);
      }
    }
  }

  /** A path under a section lights that section's link and no other. */
  lemma SectionPathActive(path: string, k: nat)
    requires k < |SectionPrefixes| && SectionPrefixes[k] <= path
    ensures IsActive(path, NavLinks[k + 1].href)
    ensures forall i :: 0 <= i < |NavLinks| && i != k + 1 ==> !IsActive(path, NavLinks[i].href)
  {
    ActiveIff(path);
    AtMostOneActive(path);
  }

  // ---------------------------------------------------------------------------------------
  // Rendering

  const AnchorOpen: string := "<a href=\""

  const ActiveAttribute: string := " class=\"active\""

  const AnchorClose: string := "</a>"

  /** What the `join` puts between two anchors. */
  const NavSeparator: string := "\n        "

  /** The text between the href's closing quote and the caption. */
  function Marker(active: bool): string
  {
    if active then ActiveAttribute + ">" else ">"
  }

  /** The template for one link: `<a href="`, the href, a quote, then `AfterHref`. */
  function AnchorHtml(l: Link, active: bool): string
  {
    AnchorOpen + l.href + "\"" + AfterHref(l, active)
  }

  /** What follows an anchor's href and its closing quote: the marker, the caption, `</a>`. */
  function AfterHref(l: Link, active: bool): string
  {
    Marker(active) + (l.caption + AnchorClose)
  }

  /** The `<nav>` contents for the current path: every link's anchor, in order. */
  function NavHtml(path: string): (r: string)
    ensures AnchorHtml(NavLinks[0], IsHomePath(path)) + NavSeparator <= r
  {
    Join(seq(|NavLinks|, i requires 0 <= i < |NavLinks| => AnchorHtml(NavLinks[i], IsActive(path, NavLinks[i].href))),
         NavSeparator)
  }

  datatype ParsedAnchor = ParsedAnchor(link: Link, active: bool)

  /** Reads an anchor back: the opening tag, then the rest as `ParseHref` reads it. */
  function ParseAnchor(s: string): (r: Option<ParsedAnchor>)
    ensures r.Some? ==> AnchorHtml(r.value.link, r.value.active) == s
  {
    if AnchorOpen <= s then
      var tail := s[|AnchorOpen|..];
      PrefixRest(AnchorOpen, s);
      var r := ParseHref(tail);
      if r.Some? then
        AnchorHtmlSplits(r.value.link, r.value.active);
        r
      else None
    else None
  }

  lemma AnchorHtmlSplits(l: Link, active: bool)
    ensures AnchorHtml(l, active) == AnchorOpen + (l.href + "\"" + AfterHref(l, active))
  {
  }

  /** The href runs up to the first quote. */
  function ParseHref(tail: string): (r: Option<ParsedAnchor>)
    ensures r.Some? ==> tail == r.value.link.href + "\"" + AfterHref(r.value.link, r.value.active)
  {
    match IndexOf(tail, "\"", 0)
    case None => None
    case Some(q) =>
      SplitAround(tail, q);
      assert [tail[q]] == "\"" by { assert tail[q..q + 1] == [tail[q]]; }
      ParseMarker(tail[..q], tail[q + 1..])
  }

  /** After the quote comes either the active attribute and `>`, or `>` alone. */
  function ParseMarker(href: string, rest: string): (r: Option<ParsedAnchor>)
    ensures r.Some? ==> r.value.link.href == href && rest == AfterHref(r.value.link, r.value.active)
  {
    if Marker(true) <= rest then
      PrefixRest(Marker(true), rest);
      ParseCaption(href, true, rest[|Marker(true)|..])
    else if Marker(false) <= rest then
      PrefixRest(Marker(false), rest);
      ParseCaption(href, false, rest[1..])
    else None
  }

  /** The caption is what remains once the closing tag is taken off the end. */
  function ParseCaption(href: string, active: bool, body: string): (r: Option<ParsedAnchor>)
    ensures r.Some? ==>
              r.value.link.href == href && r.value.active == active && body == r.value.link.caption + AnchorClose
  {
    var n := |body| - |AnchorClose|;
    if n >= 0 && body[n..] == AnchorClose then
      assert body == body[..n] + AnchorClose;
      Some(ParsedAnchor(Link(href, body[..n]), active))
    else None
  }

  lemma CaptionRoundTrip(href: string, active: bool, caption: string)
    ensures ParseCaption(href, active, caption + AnchorClose) == Some(ParsedAnchor(Link(href, caption), active))
  {
    var body := caption + AnchorClose;
    assert body[|caption|..] == AnchorClose;
    assert body[..|caption|] == caption;
  }

  lemma MarkerRoundTrip(href: string, active: bool, caption: string)
    ensures ParseMarker(href, AfterHref(Link(href, caption), active)) == Some(ParsedAnchor(Link(href, caption), active))
  {
    var body := caption + AnchorClose;
    var rest := AfterHref(Link(href, caption), active);
    CaptionRoundTrip(href, active, caption);
    if active {
      assert rest[|Marker(true)|..] == body;
    } else {
      assert !(Marker(true) <= rest) by { assert rest[0] == '>'; }
      assert rest[1..] == body;
    }
  }

  /** Rendering then reading an anchor gives back the link and its active flag, provided the
      href holds no quote. */
  lemma AnchorRoundTrip(l: Link, active: bool)
    requires '"' !in l.href
    ensures ParseAnchor(AnchorHtml(l, active)) == Some(ParsedAnchor(l, active))
  {
    var rest := AfterHref(l, active);
    AnchorHtmlSplits(l, active);
    OpenRoundTrip(l.href + "\"" + rest);
    HrefRoundTrip(l.href, rest);
    MarkerRoundTrip(l.href, active, l.caption);
  }

  lemma OpenRoundTrip(tail: string)
    ensures ParseAnchor(AnchorOpen + tail) == ParseHref(tail)
  {
    assert (AnchorOpen + tail)[|AnchorOpen|..] == tail;
  }

  lemma HrefRoundTrip(href: string, rest: string)
    requires '"' !in href
    ensures ParseHref(href + "\"" + rest) == ParseMarker(href, rest)
  {
    var tail := href + "\"" + rest;
    IndexOfAfter(href, "\"", rest);
    assert tail[..|href|] == href;
    assert tail[|href| + 1..] == rest;
  }

  /** Text without quotes or line breaks, stated character by character. */
  predicate PlainText(s: string)
  {
    forall k :: 0 <= k < |s| ==> s[k] != '"' && s[k] != '\n'
  }

  lemma PlainTextLacks(s: string)
    requires PlainText(s)
    ensures '"' !in s && '\n' !in s
  {
  }

  /** Every link's href and caption is plain text. */
  lemma NavLinksPlain()
    ensures forall i :: 0 <= i < |NavLinks| ==> PlainText(NavLinks[i].href) && PlainText(NavLinks[i].caption)
  {
    forall i | 0 <= i < |NavLinks|
      ensures PlainText(NavLinks[i].href) && PlainText(NavLinks[i].caption)
    {
      var l := NavLinks[i];
      if i == 0 {
        assert l == Link("/", "Home");
        HomePlain();
      } else if i == 1 {
        assert l == Link("/framework/", "Framework");
        FrameworkPlain();
      } else if i == 2 {
        assert l == Link("/applications/hate-response.html", "Hate Response");
        HateResponsePlain();
      } else if i == 3 {
        assert l == Link("/applications/vaccine-hesitancy.html", "Vaccine Hesitancy");
        VaccineHesitancyPlain();
      } else {
        assert l == Link("/about.html", "About");
        AboutPlain();
      }
    }
  }

  lemma HomePlain()
    ensures PlainText("/") && PlainText("Home")
  {
  }

  lemma FrameworkPlain()
    ensures PlainText("/framework/") && PlainText("Framework")
  {
  }

  lemma HateResponsePlain()
    ensures PlainText("/applications/hate-response.html") && PlainText("Hate Response")
  {
  }

  lemma VaccineHesitancyPlain()
    ensures PlainText("/applications/vaccine-hesitancy.html") && PlainText("Vaccine Hesitancy")
  {
  }

  lemma AboutPlain()
    ensures PlainText("/about.html") && PlainText("About")
  {
  }

  /** An anchor of plain link text has no line break, so the separator cannot occur inside it. */
  lemma AnchorHasNoBreak(l: Link, active: bool)
    requires '\n' !in l.href && '\n' !in l.caption
    ensures '\n' !in AnchorHtml(l, active)
  {
  }

  /** Splitting the rendered navigation at the separator gives five anchors, each of which reads
      back as its link with the flag `IsActive` computes for it. */
  lemma NavReadsBack(path: string)
    ensures var parts := Split(NavHtml(path), NavSeparator);
      |parts| == |NavLinks|
      && forall i :: 0 <= i < |NavLinks| ==>
        ParseAnchor(parts[i]) == Some(ParsedAnchor(NavLinks[i], IsActive(path, NavLinks[i].href)))
  {
    var anchors := seq(|NavLinks|, i requires 0 <= i < |NavLinks| => AnchorHtml(NavLinks[i], IsActive(path, NavLinks[i].href)));
    NavLinksPlain();
    forall i | 0 <= i < |NavLinks|
      ensures NavSeparator[0] !in anchors[i]
      ensures ParseAnchor(anchors[i]) == Some(ParsedAnchor(NavLinks[i], IsActive(path, NavLinks[i].href)))
    {
      PlainTextLacks(NavLinks[i].href);
      PlainTextLacks(NavLinks[i].caption);
      AnchorHasNoBreak(NavLinks[i], IsActive(path, NavLinks[i].href));
      AnchorRoundTrip(NavLinks[i], IsActive(path, NavLinks[i].href));
    }
    SplitJoin(anchors, NavSeparator);
  }

  /** The rendered navigation marks at most one anchor active. */
  lemma NavMarksAtMostOne(path: string)
    ensures var parts := Split(NavHtml(path), NavSeparator);
      |parts| == |NavLinks|
      && forall i, j :: 0 <= i < j < |parts| && ParseAnchor(parts[i]).Some? && ParseAnchor(parts[i]).value.active ==>
        ParseAnchor(parts[j]).Some? && !ParseAnchor(parts[j]).value.active
  {
    NavReadsBack(path);
    AtMostOneActive(path);
  }
}

=== FILE: history.dfy ===
/** The History Windower: the conversation turns the caller resends each request, trimmed
    with `conversationHistory.slice(-6)` before they reach the prompt or the upstream call. */
module History {

  /** One conversation turn. The role is the caller's string: `user` for the parent, anything
      else (normally `assistant`) for Dawn; it is copied upstream unchanged. */
  datatype Turn = Turn(role: string, content: string)

  const UserRole: string := "user"

  /** How many trailing turns survive the window. */
  const WindowSize: nat := 6

  /** `h.slice(-6)`: the trailing `min(6, |h|)` turns, in their original order. */
  function Window(h: seq<Turn>): (w: seq<Turn>)
    ensures |w| == if |h| < WindowSize then |h| else WindowSize
    ensures h == h[..|h| - |w|] + w
  {
    if |h| <= WindowSize then h else h[|h| - WindowSize..]
  }

  /** A history that already fits is passed through whole. */
  lemma ShortHistoryKept(h: seq<Turn>)
    requires |h| <= WindowSize
    ensures Window(h) == h
  {
  }

  /** The window is empty exactly when the history is. */
  lemma WindowEmptyIff(h: seq<Turn>)
    ensures |Window(h)| == 0 <==> |h| == 0
  {
  }

  /** Windowing a window changes nothing. */
  lemma WindowIdempotent(h: seq<Turn>)
    ensures Window(Window(h)) == Window(h)
  {
  }

  /** Turn `i` of the window is turn `|h| - |Window(h)| + i` of the history. */
  lemma WindowIndex(h: seq<Turn>, i: nat)
    requires i < |Window(h)|
    ensures Window(h)[i] == h[|h| - |Window(h)| + i]
  {
  }

  /** The caller resends the whole history and appends one turn per exchange; windowing the
      extended history is the same as extending the previous window and windowing again. */
  lemma WindowExtend(h: seq<Turn>, t: Turn)
    ensures Window(h + [t]) == Window(Window(h) + [t])
  {
    var w := Window(h);
    if |h| >= WindowSize {
      assert (h + [t])[|h| + 1 - WindowSize..] == h[|h| + 1 - WindowSize..] + [t];
      assert (w + [t])[1..] == w[1..] + [t];
      assert w[1..] == h[|h| + 1 - WindowSize..];
    }
  }

  /** Only the trailing six turns matter: whatever precedes them is discarded. */
  lemma WindowDropsPrefix(older: seq<Turn>, recent: seq<Turn>)
    requires |recent| == WindowSize
    ensures Window(older + recent) == recent
  {
    assert (older + recent)[|older|..] == recent;
  }
}

=== FILE: jsobject.dfy ===
/** Property lookup `table[key]` on a JavaScript object literal. Besides the literal's own
    entries, every key naming a member of `Object.prototype` finds an inherited value, and that
    value is truthy. */
module JsObject {

  /** The member names a plain object inherits from `Object.prototype`. */
  const InheritedNames: seq<string> := [
    "constructor", "__proto__", "hasOwnProperty", "isPrototypeOf",
    "propertyIsEnumerable", "toString", "toLocaleString", "valueOf",
    "__defineGetter__", "__defineSetter__", "__lookupGetter__", "__lookupSetter__"
  ]

  /** What `table[key]` yields: an own entry, an inherited prototype member, or `undefined`. */
  datatype Lookup<+T> = Own(entry: T) | Inherited | Missing
}

=== FILE: optional.dfy ===
/** Optional values: the model's stand-in for JavaScript's `undefined` fields and for lookups that can miss. */
module Optional {

  datatype Option<+T> = None | Some(value: T) {

    /** The carried value, or `default` when there is none. */
    function GetOr(default: T): T
    {
      match this
      case Some(v) => v
      case None => default
    }
  }
}

=== FILE: prompt.dfy ===
/** The Prompt Composer (`generateDawnPrompt`): six sections concatenated in a fixed order —
    ethical framework, identity, stage guidance, concern guidance, conversation history and the
    response requirements that end with the parent's message, embedded verbatim. */
module Prompt {
  import opened Optional
  import opened Strings
  import opened History
  import opened Strategy
  import opened Concerns
  import opened JsObject

  /** The prose of the prompt. Its wording is not modelled; what is modelled is where each piece
      goes. `upper` is `String.prototype.toUpperCase` and `bullet` the glyph before each
      technique. */
  datatype Texts = Texts(
    framework: string,
    identity: string,
    requirements: string,
    bullet: string,
    upper: string -> string,
    techniques: Stage -> seq<string>,
    concerns: ConcernTag -> ConcernRecord)

  /** The caller's profile, every field optional. */
  datatype Profile = Profile(stage: Option<string>, trustLevel: Option<string>, concerns: Option<seq<string>>)

  /** `profile || {}`: the profile of a request that sent none. */
  const NoProfile: Profile := Profile(None, None, None)

  const DefaultTrust: string := "moderate"

  const HistoryHeader: string := "\nCONVERSATION HISTORY:\n"

  const MessageOpen: string := "Parent's message: \""

  const MessageClose: string := "\"\n\nGenerate Dawn's response:\n"

  // ---------------------------------------------------------------------------------------
  // Stage guidance

  function TechniqueLines(bullet: string, techniques: seq<string>): string
  {
    Join(seq(|techniques|, i requires 0 <= i < |techniques| => bullet + " " + techniques[i]), "\n")
  }

  /** The bulleted technique list splits at its line breaks into one bulleted line per
      technique, in order, when neither the bullet nor any technique holds a line break. */
  lemma TechniqueLinesReadBack(bullet: string, techniques: seq<string>)
    requires |techniques| > 0 && '\n' !in bullet
    requires forall i :: 0 <= i < |techniques| ==> '\n' !in techniques[i]
    ensures Split(TechniqueLines(bullet, techniques), "\n")
      == seq(|techniques|, i requires 0 <= i < |techniques| => bullet + " " + techniques[i])
  {
    var lines := seq(|techniques|, i requires 0 <= i < |techniques| => bullet + " " + techniques[i]);
    forall j | 0 <= j < |lines|
      ensures "\n"[0] !in lines[j]
    {
      assert '\n' !in techniques[j];
    }
    SplitJoin(lines, "\n");
  }

  const StageHeading: string := "\nBEHAVIORAL STRATEGY FOR THIS PARENT:\n"

  /** The line naming the stage as displayed. */
  function StageLine(shown: string): string
  {
    "Stage: " + shown + "\n"
  }

  /** The approach, the bulleted techniques and the trust level. */
  function StrategyLines(bullet: string, rec: StrategyRecord, trust: string): string
  {
    "Approach: " + rec.approach + "\n\nTechniques to use:\n" + TechniqueLines(bullet, rec.techniques)
      + "\n\nTrust level: " + trust + "\n"
  }

  /** The stage section for a displayed stage, a strategy record and a trust level. */
  function StageBlock(texts: Texts, shown: string, rec: StrategyRecord, trust: string): string
  {
    StageHeading + StageLine(shown) + StrategyLines(texts.bullet, rec, trust)
  }

  /** The stage section: the heading, then the Stage line showing the stage used, then the
      strategy of the record it selects. */
  function StageGuidance(texts: Texts, p: Profile): (r: string)
    ensures StageHeading + StageLine(texts.upper(EffectiveStage(p.stage))) <= r
  {
    var stage := EffectiveStage(p.stage);
    StageBlock(texts, texts.upper(stage), SelectStrategy(texts.techniques, stage), Fallback(p.trustLevel, DefaultTrust))
  }

  /** A stage outside the table keeps its own name on the `Stage:` line but takes the
      contemplation record; a missing stage is shown and used as `contemplation`; a missing
      trust level is shown as `moderate`. */
  lemma StageGuidanceFallbacks(texts: Texts, p: Profile)
    ensures p.stage.Some? && p.stage.value != "" && ParseStage(p.stage.value).None? ==>
      StageGuidance(texts, p)
      == StageBlock(texts, texts.upper(p.stage.value), Record(texts.techniques, Contemplation),
                    Fallback(p.trustLevel, DefaultTrust))
    ensures p.stage.None? ==>
      StageGuidance(texts, p) == StageGuidance(texts, p.(stage := Some(DefaultStage)))
    ensures p.trustLevel.None? ==>
      StageGuidance(texts, p) == StageGuidance(texts, p.(trustLevel := Some(DefaultTrust)))
    ensures p.stage == Some("") ==> StageGuidance(texts, p) == StageGuidance(texts, p.(stage := None))
    ensures p.trustLevel == Some("") ==> StageGuidance(texts, p) == StageGuidance(texts, p.(trustLevel := None))
  {
  }

  /** The `Stage:` line shows the caller's stage string, whatever record it selects. */
  lemma StageLineShowsCallerStage(texts: Texts, p: Profile, s: string)
    requires p.stage == Some(s) && s != ""
    ensures Contains(StageGuidance(texts, p), StageLine(texts.upper(s)))
  {
    var rec := SelectStrategy(texts.techniques, s);
    var trust := Fallback(p.trustLevel, DefaultTrust);
    assert StageGuidance(texts, p) == StageBlock(texts, texts.upper(s), rec, trust);
    ContainsInfix(StageHeading, StageLine(texts.upper(s)), StrategyLines(texts.bullet, rec, trust));
  }

  // ---------------------------------------------------------------------------------------
  // Conversation history

  /** `msg.role === 'user' ? 'Parent' : 'Dawn'`. */
  function Speaker(role: string): (r: string)
    ensures r == "Parent" <==> role == UserRole
    ensures r == "Dawn" <==> role != UserRole
  {
    if role == UserRole then "Parent" else "Dawn"
  }

  function RenderTurn(t: Turn): string
  {
    Speaker(t.role) + ": " + t.content + "\n"
  }

  function RenderTurns(ts: seq<Turn>): string
  {
    if |ts| == 0 then "" else RenderTurn(ts[0]) + RenderTurns(ts[1..])
  }

  /** The history section: empty for an empty history, otherwise the header and one line per
      turn of the window. */
  function ConversationContext(h: seq<Turn>): (r: string)
    ensures r == "" <==> |h| == 0
    ensures |h| > 0 ==> HistoryHeader <= r
  {
    if |h| > 0 then HistoryHeader + RenderTurns(Window(h)) else ""
  }

  /** Histories with the same window render the same history section: turns before the window
      never reach the prompt. */
  lemma ContextDependsOnlyOnWindow(h1: seq<Turn>, h2: seq<Turn>)
    requires Window(h1) == Window(h2)
    ensures ConversationContext(h1) == ConversationContext(h2)
  {
    WindowEmptyIff(h1);
    WindowEmptyIff(h2);
  }

  /** The history section holds the rendering of exactly the windowed turns. */
  lemma ContextRendersWindow(h: seq<Turn>)
    ensures Contains(ConversationContext(h), RenderTurns(Window(h)))
  {
    if |h| > 0 {
      ContainsInfix(HistoryHeader, RenderTurns(Window(h)), "");
      assert HistoryHeader + RenderTurns(Window(h)) + "" == ConversationContext(h);
    } else {
      ContainsInfix("", "", "");
    }
  }

  /** Rendering is piecewise, so each turn is one line of the section. */
  lemma {:induction false} RenderTurnsAppend(a: seq<Turn>, b: seq<Turn>)
    ensures RenderTurns(a + b) == RenderTurns(a) + RenderTurns(b)
    decreases |a|
  {
    if |a| > 0 {
      assert (a + b)[0] == a[0];
      assert (a + b)[1..] == a[1..] + b;
      RenderTurnsAppend(a[1..], b);
    } else {
      assert a + b == b;
    }
  }

  // ---------------------------------------------------------------------------------------
  // The whole document

  /** The response requirements, closing with the parent's message verbatim. */
  function Footer(texts: Texts, message: string): (f: string)
    ensures |f| >= |message| + |MessageClose|
    ensures f[|f| - |MessageClose| - |message|..|f| - |MessageClose|] == message
    ensures f[|f| - |MessageClose|..] == MessageClose
  {
    var front := texts.requirements + MessageOpen;
    assert (front + message + MessageClose)[|front|..|front| + |message|] == message;
    front + message + MessageClose
  }

  /** The five sections before the footer; none of them depends on the message. */
  function Preamble(texts: Texts, p: Profile, h: seq<Turn>): (r: string)
    ensures texts.framework + texts.identity <= r
  {
    var fixed := texts.framework + texts.identity;
    var guidance := StageGuidance(texts, p) + Guidance(texts.concerns, p.concerns);
    PrefixOfConcat(fixed, guidance, ConversationContext(h));
    fixed + guidance + ConversationContext(h)
  }

  /** `generateDawnPrompt(profile, message, conversationHistory)`. */
  function Compose(texts: Texts, p: Profile, message: string, h: seq<Turn>): (r: string)
    ensures texts.framework + texts.identity <= r
    ensures |r| >= |Footer(texts, message)| && r[|r| - |Footer(texts, message)|..] == Footer(texts, message)
  {
    var pre := Preamble(texts, p, h);
    var foot := Footer(texts, message);
    SliceOfSuffix(pre, foot, 0, |foot|);
    pre + foot
  }

  /** `r` ends with `message` followed by the fixed closing text. */
  predicate ClosesWith(r: string, message: string)
  {
    && |r| >= |message| + |MessageClose|
    && r[|r| - |MessageClose| - |message|..|r| - |MessageClose|] == message
    && r[|r| - |MessageClose|..] == MessageClose
  }

  /** The parent's message closes the prompt verbatim, followed only by the fixed closing text. */
  lemma ComposeEndsWithMessage(texts: Texts, p: Profile, message: string, h: seq<Turn>)
    ensures ClosesWith(Compose(texts, p, message, h), message)
  {
    EndsWithMessage(Preamble(texts, p, h), texts, message);
  }

  /** Whatever precedes the footer, the message sits just before the closing text. */
  lemma EndsWithMessage(pre: string, texts: Texts, message: string)
    ensures ClosesWith(pre + Footer(texts, message), message)
  {
    var foot := Footer(texts, message);
    assert ClosesWith(foot, message);
    SuffixOfConcat(pre, foot);
    MessageBeforeClose(pre + foot, foot, message);
  }

  /** A text ending with a footer has the footer's message and closing text in the same place
      from the end. */
  lemma MessageBeforeClose(r: string, foot: string, message: string)
    requires |foot| <= |r| && r[|r| - |foot|..] == foot
    requires ClosesWith(foot, message)
    ensures ClosesWith(r, message)
  {
    SliceOfTail(r, foot, |foot| - |MessageClose| - |message|, |foot| - |MessageClose|);
    SliceOfTail(r, foot, |foot| - |MessageClose|, |foot|);
    assert r[|r| - |MessageClose|..] == r[|r| - |MessageClose|..|r|];
    assert foot[|foot| - |MessageClose|..] == foot[|foot| - |MessageClose|..|foot|];
  }

  /** The message can be read back from the prompt: two messages giving the same prompt are
      the same message. */
  lemma ComposeDeterminesMessage(texts: Texts, p: Profile, m1: string, m2: string, h: seq<Turn>)
    requires Compose(texts, p, m1, h) == Compose(texts, p, m2, h)
    ensures m1 == m2
  {
    var pre := Preamble(texts, p, h);
    assert |Compose(texts, p, m1, h)| == |pre| + |Footer(texts, m1)|;
    assert |Compose(texts, p, m2, h)| == |pre| + |Footer(texts, m2)|;
  }

  /** The stage and concern sections appear in the prompt, adjacent and in that order. */
  lemma ComposeShowsSections(texts: Texts, p: Profile, message: string, h: seq<Turn>)
    ensures Contains(Compose(texts, p, message, h), StageGuidance(texts, p) + Guidance(texts.concerns, p.concerns))
  {
    var sections := StageGuidance(texts, p) + Guidance(texts.concerns, p.concerns);
    ContainsInfix(texts.framework + texts.identity, sections, ConversationContext(h));
    ContainsExtend(Preamble(texts, p, h), Footer(texts, message), sections);
  }

  /** The prompt's history section renders exactly the windowed turns. */
  lemma ComposeShowsWindow(texts: Texts, p: Profile, message: string, h: seq<Turn>)
    ensures Contains(Compose(texts, p, message, h), RenderTurns(Window(h)))
  {
    var front := texts.framework + texts.identity + (StageGuidance(texts, p) + Guidance(texts.concerns, p.concerns));
    var context := ConversationContext(h);
    assert Compose(texts, p, message, h) == front + context + Footer(texts, message);
    ContextRendersWindow(h);
    ContainsWithin(front, context, Footer(texts, message), RenderTurns(Window(h)));
  }

  /** Histories with the same window give the same prompt. */
  lemma ComposeDependsOnlyOnWindow(texts: Texts, p: Profile, message: string, h1: seq<Turn>, h2: seq<Turn>)
    requires Window(h1) == Window(h2)
    ensures Compose(texts, p, message, h1) == Compose(texts, p, message, h2)
  {
    ContextDependsOnlyOnWindow(h1, h2);
  }
  // ---------------------------------------------------------------------------------------
  // The prompt as the worker writes it: both table lookups go through the object literal, so
  // an inherited stage name makes `strategy.techniques.map` throw and an inherited concern name
  // renders a block of `undefined` texts.

  /** Neither the stage used nor any concern is named after an `Object.prototype` member. */
  predicate OffPrototype(p: Profile)
  {
    EffectiveStage(p.stage) !in InheritedNames && (p.concerns.Some? ==> NoInheritedNames(p.concerns.value))
  }

  /** The stage section as written: `None` where building it throws. */
  function StageGuidanceAsWritten(texts: Texts, p: Profile): (r: Option<string>)
    ensures r.None? <==> EffectiveStage(p.stage) in InheritedNames
  {
    var stage := EffectiveStage(p.stage);
    match SelectStrategyAsWritten(texts.techniques, stage)
    case None => None
    case Some(rec) => Some(StageBlock(texts, texts.upper(stage), rec, Fallback(p.trustLevel, DefaultTrust)))
  }

  /** `generateDawnPrompt` as written: `None` where it throws. */
  function ComposeAsWritten(texts: Texts, p: Profile, message: string, h: seq<Turn>): (r: Option<string>)
    ensures r.None? <==> EffectiveStage(p.stage) in InheritedNames
  {
    match StageGuidanceAsWritten(texts, p)
    case None => None
    case Some(stageSection) =>
      Some(texts.framework + texts.identity + (stageSection + GuidanceAsWritten(texts.concerns, p.concerns))
           + ConversationContext(h) + Footer(texts, message))
  }

  /** Away from the inherited names, the prompt as written is the corrected prompt. */
  lemma ComposeAsWrittenAgrees(texts: Texts, p: Profile, message: string, h: seq<Turn>)
    requires OffPrototype(p)
    ensures ComposeAsWritten(texts, p, message, h) == Some(Compose(texts, p, message, h))
  {
    AsWrittenAgreesOffPrototype(texts.techniques, EffectiveStage(p.stage));
    assert StageGuidanceAsWritten(texts, p) == Some(StageGuidance(texts, p));
    if p.concerns.Some? {
      BlocksAsWrittenAgree(texts.concerns, p.concerns.value);
    }
    assert GuidanceAsWritten(texts.concerns, p.concerns) == Guidance(texts.concerns, p.concerns);
  }

  /** Whenever the prompt as written is built, it contains its concern section. */
  lemma ComposeAsWrittenShowsConcerns(texts: Texts, p: Profile, message: string, h: seq<Turn>)
    requires ComposeAsWritten(texts, p, message, h).Some?
    ensures Contains(ComposeAsWritten(texts, p, message, h).value, GuidanceAsWritten(texts.concerns, p.concerns))
  {
    var fixed := texts.framework + texts.identity;
    var stageSection := StageGuidanceAsWritten(texts, p).value;
    var concern := GuidanceAsWritten(texts.concerns, p.concerns);
    var sections := stageSection + concern;
    assert ComposeAsWritten(texts, p, message, h).value == fixed + sections + ConversationContext(h) + Footer(texts, message);
    ContainsInfix(stageSection, concern, "");
    assert stageSection + concern + "" == sections;
    ContainsPrepend(fixed, sections, concern);
    ContainsExtend(fixed + sections, ConversationContext(h), concern);
    ContainsExtend(fixed + sections + ConversationContext(h), Footer(texts, message), concern);
  }

  /** With a single concern the lookup finds on the prototype, the prompt as written carries the
      block of `undefined` texts. */
  lemma InheritedConcernInPromptAsWritten(texts: Texts, p: Profile, message: string, h: seq<Turn>, s: string)
    requires EffectiveStage(p.stage) !in InheritedNames
    requires p.concerns == Some([s]) && TagLookupAsWritten(s).Inherited?
    ensures ComposeAsWritten(texts, p, message, h).Some?
    ensures Contains(ComposeAsWritten(texts, p, message, h).value, GuidanceHeader + Block(s, UndefinedRecord))
  {
    InheritedConcernSectionAsWritten(texts.concerns, s);
    ComposeAsWrittenShowsConcerns(texts, p, message, h);
  }
}

=== FILE: quota.dfy ===
/** The Rate Limiter: a per-client message counter kept entirely in a `dawn_count` cookie.
    The worker reads it with the pattern `dawn_count=(\d+)`, admits a request while the count
    is below the limit, and on success hands back a cookie holding the count plus one. */
module Quota {
  import opened Optional
  import opened Strings
  import opened Decimal

  /** The literal part of the cookie pattern. */
  const CountKey: string := "dawn_count="

  /** Everything after the value in the `Set-Cookie` header: one hour, whole site, lax. */
  const CookieAttributes: string := "; Max-Age=3600; Path=/; SameSite=Lax"

  /** At index `i` the header holds `dawn_count=` followed by at least one digit: a place where
      `dawn_count=(\d+)` matches. */
  predicate MatchAt(s: string, i: int)
  {
    OccursAt(s, CountKey, i) && i + |CountKey| < |s| && IsDigit(s[i + |CountKey|])
  }

  /** `i` is where the regular expression, scanning left to right, finds its match. */
  predicate LeftmostMatch(s: string, i: int)
  {
    MatchAt(s, i) && forall k :: 0 <= k < i ==> !MatchAt(s, k)
  }

  /** The scan of `String.prototype.match` from index `from` on. */
  function FindMatch(s: string, from: nat): (r: Option<nat>)
    ensures r.Some? ==> from <= r.value && MatchAt(s, r.value)
    ensures r.Some? ==> forall k :: from <= k < r.value ==> !MatchAt(s, k)
    ensures r.None? ==> forall k :: from <= k ==> !MatchAt(s, k)
    decreases |s| - from
  {
    if from + |CountKey| >= |s| then None
    else if MatchAt(s, from) then Some(from)
    else FindMatch(s, from + 1)
  }

  /** The count a cookie header carries: `parseInt` of the digits captured at the leftmost
      match, or 0 when the pattern matches nowhere. */
  function CountIn(s: string): (count: nat)
    ensures (forall k :: !MatchAt(s, k)) ==> count == 0
    ensures forall i :: LeftmostMatch(s, i) ==> count == Value(DigitRun(s[i + |CountKey|..]))
  {
    match FindMatch(s, 0)
    case None => 0
    case Some(i) => Value(DigitRun(s[i + |CountKey|..]))
  }

  /** `checkRateLimit`: a request without a Cookie header reads as the empty header. */
  function ReadCount(header: Option<string>): (count: nat)
    ensures header.None? ==> count == 0
  {
    CountIn(header.GetOr(""))
  }

  /** `count < limit`: the request may go ahead. */
  predicate Admitted(count: nat, limit: nat)
  {
    count < limit
  }

  /** The cookie pair a browser sends back: `dawn_count=<n>`. */
  function CookiePair(n: nat): string
  {
    CountKey + Render(n)
  }

  /** `getRateLimitCookie(count)`: the `Set-Cookie` value recording one more message. */
  function SetCookie(count: nat): (r: string)
    ensures CountIn(r) == count + 1
  {
    PairReadsBack(count + 1, CookieAttributes);
    CookiePair(count + 1) + CookieAttributes
  }

  /** A cookie pair reads back as its own count, whatever non-digit text follows it. */
  lemma {:induction false} PairReadsBack(n: nat, rest: string)
    requires |rest| > 0 ==> !IsDigit(rest[0])
    ensures CountIn(CookiePair(n) + rest) == n
  {
    var digits := Render(n);
    var s := CountKey + digits + rest;
    assert s[..|CountKey|] == CountKey;
    assert s[|CountKey|] == digits[0];
    assert MatchAt(s, 0);
    assert LeftmostMatch(s, 0);
    assert s[|CountKey|..] == digits + rest;
    DigitRunOfDigits(digits, rest);
    ValueOfRender(n);
  }

  /** The cookie written after a request with count `c` reads as `c + 1` on the next request,
      both as the browser returns it and as the whole header value. */
  lemma SetCookieReadsBack(count: nat)
    ensures ReadCount(Some(CookiePair(count + 1))) == count + 1
    ensures ReadCount(Some(SetCookie(count))) == count + 1
  {
    PairReadsBack(count + 1, "");
    assert CookiePair(count + 1) + "" == CookiePair(count + 1);
    PairReadsBack(count + 1, CookieAttributes);
  }

  /** A header with no `dawn_count=` followed by a digit reads as 0, as does `dawn_count=abc`. */
  lemma NonNumericReadsZero(header: string)
    requires forall k :: !MatchAt(header, k)
    ensures ReadCount(Some(header)) == 0
    ensures ReadCount(Some("dawn_count=abc")) == 0
    ensures ReadCount(Some("")) == 0
  {
    var s := "dawn_count=abc";
    forall k
      ensures !MatchAt(s, k)
    {
      if OccursAt(s, CountKey, k) && k + |CountKey| < |s| {
        assert k < 3;
        assert s[k + |CountKey|] in "abc";
      }
    }
  }

  /** The pattern is not anchored to the first `dawn_count=`: a non-numeric occurrence is
      skipped and a later numeric one is read. */
  lemma LaterNumericOccurrenceRead()
    ensures ReadCount(Some("dawn_count=x; dawn_count=4")) == 4
  {
    var s := "dawn_count=x; dawn_count=4";
    assert s[14..14 + |CountKey|] == CountKey;
    assert MatchAt(s, 14);
    forall k | 0 <= k < 14
      ensures !MatchAt(s, k)
    {
      if 0 < k {
        assert s[k] != 'd';
      }
    }
    assert LeftmostMatch(s, 14);
    assert s[14 + |CountKey|..] == "4";
    assert DigitRun("4") == "4";
  }
}

=== FILE: strategy.dfy ===
/** The Strategy Selector: the closed three-entry table of behaviour-change stages, with the
    documented fallback to `contemplation` for every stage the table does not know. */
module Strategy {
  import opened Optional
  import opened Strings
  import opened JsObject

  datatype Stage = PreContemplation | Contemplation | Preparation

  /** A table entry. The approach names are fixed; the technique sentences are prose and come
      from the caller of this module. */
  datatype StrategyRecord = StrategyRecord(approach: string, techniques: seq<string>)

  /** The stage shown and used when the profile names none. */
  const DefaultStage: string := "contemplation"

  function StageName(st: Stage): string
  {
    match st
    case PreContemplation => "pre_contemplation"
    case Contemplation => "contemplation"
    case Preparation => "preparation"
  }

  /** Own-key lookup in the stage table: the caller's string names a stage exactly when it is
      that stage's key. */
  function ParseStage(s: string): (r: Option<Stage>)
    ensures r.Some? ==> StageName(r.value) == s
    ensures forall st :: StageName(st) == s ==> r == Some(st)
  {
    if s == "pre_contemplation" then Some(PreContemplation)
    else if s == "contemplation" then Some(Contemplation)
    else if s == "preparation" then Some(Preparation)
    else None
  }

  function Approach(st: Stage): string
  {
    match st
    case PreContemplation => "relationship_building"
    case Contemplation => "tip_toward_action"
    case Preparation => "facilitate_action"
  }

  /** The table entry for a stage. */
  function Record(techniques: Stage -> seq<string>, st: Stage): StrategyRecord
  {
    StrategyRecord(Approach(st), techniques(st))
  }

  /** `profile.stage || 'contemplation'`: a given stage is kept, a missing or empty one becomes
      the default, so the stage used is never empty. */
  function EffectiveStage(stage: Option<string>): (s: string)
    ensures stage.Some? && stage.value != "" ==> s == stage.value
    ensures stage.None? || stage.value == "" ==> s == DefaultStage
    ensures s != ""
  {
    Fallback(stage, DefaultStage)
  }

  /** `stageStrategies[stage] || stageStrategies.contemplation` over the closed table. */
  function SelectStrategy(techniques: Stage -> seq<string>, s: string): (r: StrategyRecord)
    ensures forall st :: s == StageName(st) ==> r == Record(techniques, st)
    ensures (forall st :: s != StageName(st)) ==> r == Record(techniques, Contemplation)
  {
    Record(techniques, ParseStage(s).GetOr(Contemplation))
  }

  /** Every stage is reachable through its own key, and the approach tells the stages apart. */
  lemma StageTableClosed(techniques: Stage -> seq<string>, st: Stage, st': Stage)
    ensures ParseStage(StageName(st)) == Some(st)
    ensures SelectStrategy(techniques, StageName(st)) == Record(techniques, st)
    ensures Approach(st) == Approach(st') <==> st == st'
  {
  }

  /** A stage outside the table, including the empty string, selects exactly the record the
      default stage selects. */
  lemma StageFallback(techniques: Stage -> seq<string>, s: string)
    requires forall st :: StageName(st) != s
    ensures SelectStrategy(techniques, s) == SelectStrategy(techniques, DefaultStage)
    ensures SelectStrategy(techniques, s).approach == "tip_toward_action"
  {
  }

  /** A stage the table does know selects its own record and no other. */
  lemma StageKnown(techniques: Stage -> seq<string>, s: string, st: Stage)
    ensures SelectStrategy(techniques, s).approach == Approach(st) <==>
      (StageName(st) == s || (st == Contemplation && ParseStage(s).None?))
  {
  }

  // ---------------------------------------------------------------------------------------
  // The lookup as the worker writes it: `stageStrategies` is an object literal, so a stage
  // named after an `Object.prototype` member finds that member instead of `undefined`.

  function StageLookupAsWritten(s: string): Lookup<Stage>
  {
    match ParseStage(s)
    case Some(st) => Own(st)
    case None => if s in InheritedNames then Inherited else Missing
  }

  /** `stageStrategies[stage] || stageStrategies.contemplation` followed by
      `strategy.techniques.map(…)`. An inherited member is truthy, so it is kept; it has no
      `techniques`, so the map raises a TypeError, shown here as `None`. */
  function SelectStrategyAsWritten(techniques: Stage -> seq<string>, s: string): (r: Option<StrategyRecord>)
    ensures r.None? <==> s in InheritedNames
  {
    match StageLookupAsWritten(s)
    case Own(st) => Some(Record(techniques, st))
    case Inherited => None
    case Missing => Some(Record(techniques, Contemplation))
  }

  /** The stage "constructor" makes the as-written prompt builder throw, where the documented
      fallback selects the contemplation record. */
  lemma ConstructorStageThrowsAsWritten(techniques: Stage -> seq<string>)
    ensures SelectStrategyAsWritten(techniques, "constructor") == None
    ensures SelectStrategy(techniques, "constructor") == Record(techniques, Contemplation)
  {
  }

  /** Away from the inherited names, the as-written lookup and the corrected one agree. */
  lemma AsWrittenAgreesOffPrototype(techniques: Stage -> seq<string>, s: string)
    requires s !in InheritedNames
    ensures SelectStrategyAsWritten(techniques, s) == Some(SelectStrategy(techniques, s))
  {
  }
}

=== FILE: strings.dfy ===
/** String operations the worker and the header script borrow from JavaScript's `String` API. */
module Strings {
  import opened Optional

  /** `pat` occurs in `s` starting at index `i`. */
  predicate OccursAt(s: string, pat: string, i: int)
  {
    0 <= i && i + |pat| <= |s| && s[i..i + |pat|] == pat
  }

  /** `i` is the leftmost index at which `pat` occurs in `s`. */
  predicate FirstOccurrence(s: string, pat: string, i: int)
  {
    OccursAt(s, pat, i) && forall k :: 0 <= k < i ==> !OccursAt(s, pat, k)
  }

  ghost predicate Contains(s: string, pat: string)
  {
    exists i :: OccursAt(s, pat, i)
  }

  lemma ContainsInfix(a: string, pat: string, b: string)
    ensures Contains(a + pat + b, pat)
  {
    var s := a + pat + b;
    assert s[|a|..|a| + |pat|] == pat;
    assert OccursAt(s, pat, |a|);
  }

  lemma ContainsWithin(a: string, mid: string, b: string, pat: string)
    requires Contains(mid, pat)
    ensures Contains(a + mid + b, pat)
  {
    var i :| OccursAt(mid, pat, i);
    var s := a + mid + b;
    assert s[|a| + i..|a| + i + |pat|] == mid[i..i + |pat|];
    assert OccursAt(s, pat, |a| + i);
  }

  /** Text appended after an occurrence leaves it in place. */
  lemma ContainsExtend(a: string, b: string, pat: string)
    requires Contains(a, pat)
    ensures Contains(a + b, pat)
  {
    var i :| OccursAt(a, pat, i);
    assert (a + b)[i..i + |pat|] == a[i..i + |pat|];
    assert OccursAt(a + b, pat, i);
  }

  /** Text prepended before an occurrence shifts it but keeps it. */
  lemma ContainsPrepend(a: string, b: string, pat: string)
    requires Contains(b, pat)
    ensures Contains(a + b, pat)
  {
    var i :| OccursAt(b, pat, i);
    assert (a + b)[|a| + i..|a| + i + |pat|] == b[i..i + |pat|];
    assert OccursAt(a + b, pat, |a| + i);
  }

  /** The first index at or after `from` where `pat` occurs. This is `s.indexOf(pat, from)` for a
      start within the text; JavaScript would also clamp a start beyond the end, which no caller
      here needs. */
  function IndexOf(s: string, pat: string, from: nat): (r: Option<nat>)
    ensures r.Some? ==> from <= r.value && OccursAt(s, pat, r.value)
    ensures r.Some? ==> forall k :: from <= k < r.value ==> !OccursAt(s, pat, k)
    ensures r.None? ==> forall k :: from <= k ==> !OccursAt(s, pat, k)
    decreases |s| - from
  {
    if from + |pat| > |s| then None
    else if s[from..from + |pat|] == pat then Some(from)
    else IndexOf(s, pat, from + 1)
  }

  /** An occurrence of `pat` begins with `pat[0]`, so a text free of that character holds none. */
  lemma NoOccurrenceWithoutHead(s: string, pat: string)
    requires |pat| > 0 && pat[0] !in s
    ensures forall k :: !OccursAt(s, pat, k)
  {
  }

  /** In `a + pat + rest` with `pat[0]` absent from `a`, the first occurrence of `pat` is right after `a`. */
  lemma {:induction false} IndexOfAfter(a: string, pat: string, rest: string)
    requires |pat| > 0 && pat[0] !in a
    ensures IndexOf(a + pat + rest, pat, 0) == Some(|a|)
  {
    var s := a + pat + rest;
    assert s[|a|..|a| + |pat|] == pat;
    assert OccursAt(s, pat, |a|);
    var r := IndexOf(s, pat, 0);
    assert r.Some?;
  }

  /** JavaScript's `s.replace(pat, rep)` with a string pattern: only the first occurrence is replaced. */
  function ReplaceFirst(s: string, pat: string, rep: string): (r: string)
    ensures (forall k :: !OccursAt(s, pat, k)) ==> r == s
    ensures forall i :: FirstOccurrence(s, pat, i) ==> r == s[..i] + rep + s[i + |pat|..]
  {
    match IndexOf(s, pat, 0)
    case None => s
    case Some(i) => s[..i] + rep + s[i + |pat|..]
  }

  /** Replacing a pattern one of whose characters the text lacks changes nothing. */
  lemma ReplaceFirstAbsent(s: string, pat: string, j: nat, rep: string)
    requires j < |pat| && pat[j] !in s
    ensures ReplaceFirst(s, pat, rep) == s
  {
    forall k | 0 <= k <= |s| - |pat|
      ensures !OccursAt(s, pat, k)
    {
      assert s[k..k + |pat|][j] == s[k + j];
    }
  }

  /** Replacing in `a + pat + b`, where `a` lacks the pattern's first character, replaces the
      occurrence right after `a`. */
  lemma ReplaceFirstAfter(a: string, pat: string, b: string, rep: string)
    requires |pat| > 0 && pat[0] !in a
    ensures ReplaceFirst(a + pat + b, pat, rep) == a + rep + b
  {
    var s := a + pat + b;
    IndexOfAfter(a, pat, b);
    assert s[..|a|] == a;
    assert s[|a| + |pat|..] == b;
  }

  /** JavaScript's `s.replace(/c/g, d)` for a single character `c`. */
  function ReplaceChar(s: string, from: char, to: char): (r: string)
    ensures |r| == |s|
    ensures forall i :: 0 <= i < |s| ==> r[i] == if s[i] == from then to else s[i]
  {
    if |s| == 0 then "" else [if s[0] == from then to else s[0]] + ReplaceChar(s[1..], from, to)
  }

  /** JavaScript's `a || d` on a string that may be undefined: empty and missing both fall back. */
  function Fallback(o: Option<string>, default: string): (r: string)
    ensures o.Some? && o.value != "" ==> r == o.value
    ensures o.None? || o.value == "" ==> r == default
  {
    if o.Some? && o.value != "" then o.value else default
  }

  /** The left operand of a concatenation is a prefix of it. */
  lemma PrefixOfConcat<T>(a: seq<T>, b: seq<T>, c: seq<T>)
    ensures a <= a + b + c
  {
    assert (a + b + c)[..|a|] == a;
  }

  /** A slice of a sequence's suffix `t` is the matching slice of the whole sequence. */
  lemma SliceOfTail<T>(r: seq<T>, t: seq<T>, i: nat, j: nat)
    requires |t| <= |r| && r[|r| - |t|..] == t && i <= j <= |t|
    ensures r[|r| - |t| + i..|r| - |t| + j] == t[i..j]
  {
    var d := |r| - |t|;
    forall k | 0 <= k < j - i
      ensures r[d + i..d + j][k] == t[i..j][k]
    {
      assert r[d..][i + k] == t[i + k];
    }
    assert |r[d + i..d + j]| == |t[i..j]|;
  }

  /** The right operand of a concatenation is the suffix of its length. */
  lemma SuffixOfConcat<T>(a: seq<T>, b: seq<T>)
    ensures (a + b)[|a + b| - |b|..] == b
  {
    assert (a + b)[|a|..] == b;
  }

  /** A sequence is its prefix followed by the rest. */
  lemma PrefixRest<T>(p: seq<T>, s: seq<T>)
    requires p <= s
    ensures s == p + s[|p|..]
  {
  }

  /** A sequence is what precedes index `i`, the element at `i`, and what follows. */
  lemma SplitAround<T>(s: seq<T>, i: nat)
    requires i < |s|
    ensures s == s[..i] + [s[i]] + s[i + 1..]
  {
  }

  /** A slice of the right operand of `a + b`, read from the concatenation. */
  lemma SliceOfSuffix<T>(a: seq<T>, b: seq<T>, i: nat, j: nat)
    requires i <= j <= |b|
    ensures (a + b)[|a| + i..|a| + j] == b[i..j]
  {
  }

  /** JavaScript's `items.join(sep)`. */
  function Join(items: seq<string>, sep: string): string
  {
    if |items| == 0 then ""
    else if |items| == 1 then items[0]
    else items[0] + sep + Join(items[1..], sep)
  }

  /** Cuts `s` at every occurrence of a non-empty `sep`, as `s.split(sep)` does; it reads a
      joined text back into its items. */
  function Split(s: string, sep: string): (r: seq<string>)
    requires |sep| > 0
    ensures |r| > 0
    decreases |s|
  {
    match IndexOf(s, sep, 0)
    case None => [s]
    case Some(i) => [s[..i]] + Split(s[i + |sep|..], sep)
  }

  /** Splitting undoes joining when no item holds the separator's first character. */
  lemma {:induction false} SplitJoin(items: seq<string>, sep: string)
    requires |sep| > 0 && |items| > 0
    requires forall j :: 0 <= j < |items| ==> sep[0] !in items[j]
    ensures Split(Join(items, sep), sep) == items
    decreases |items|
  {
    if |items| == 1 {
      NoOccurrenceWithoutHead(items[0], sep);
    } else {
      var rest := Join(items[1..], sep);
      var s := items[0] + sep + rest;
      IndexOfAfter(items[0], sep, rest);
      assert s[..|items[0]|] == items[0];
      assert s[|items[0]| + |sep|..] == rest;
      SplitJoin(items[1..], sep);
      assert [items[0]] + items[1..] == items;
    }
  }
}

=== FILE: worker.dfy ===
/** The Request Gate and Response Assembler: the worker's `fetch` handler. It answers in a fixed
    order — preflight, method check, quota, body, message, upstream reply — and attaches the
    permissive CORS headers to every response. The one outbound call, to the completion service,
    is an oracle parameter. */
module Worker {
  import opened Optional
  import opened Strings
  import opened History
  import opened Strategy
  import opened Concerns
  import opened Prompt
  import opened Quota
  import opened JsObject

  /** The fields of an already-parsed JSON body; any of them may be missing. */
  datatype Fields = Fields(message: Option<string>, profile: Option<Profile>, conversationHistory: Option<seq<Turn>>)

  /** `await request.json()`: parsed fields, or the error message of a body that is not JSON. */
  datatype Body = Parsed(fields: Fields) | Unparseable(reason: string)

  datatype Request = Request(httpMethod: string, cookie: Option<string>, body: Body)

  /** The completion service's answer: the reply text of an ok response, or a non-ok status. */
  datatype Reply = Completed(text: string) | Failed(status: int)

  /** The optional second field of an error body: `message` or `details`. */
  datatype Detail = NoDetail | Notice(text: string) | UpstreamStatus(status: int)

  /** The JSON body of a response; preflight responses have none. */
  datatype Payload =
    | NoBody
    | ErrorBody(error: string, detail: Detail)
    | Answer(response: string, messagesRemaining: int)

  type Header = (string, string)

  datatype Response = Response(status: nat, headers: seq<Header>, payload: Payload)

  /** What the handler does before the outbound call: answer at once, or call the completion
      service with a system prompt and a message list, remembering the count it read. */
  datatype Decision = Respond(response: Response) | CallUpstream(system: string, messages: seq<Turn>, count: nat)

  const CorsHeaders: seq<Header> := [
    ("Access-Control-Allow-Origin", "*"),
    ("Access-Control-Allow-Methods", "POST, OPTIONS"),
    ("Access-Control-Allow-Headers", "Content-Type")
  ]

  const JsonHeaders: seq<Header> := CorsHeaders + [("Content-Type", "application/json")]

  /** The fixed text of the 429 body. It names ten messages whatever the configured limit is. */
  const QuotaNotice: string := "You've reached the demo limit of 10 messages. This helps us manage costs while sharing this prototype. Thank you for your interest in DAWN!"

  /** `!message` is false: the message is present and not empty. */
  predicate HasMessage(f: Fields)
  {
    f.message.Some? && f.message.value != ""
  }

  /** A POST that passed the quota check, so its body is looked at. */
  predicate Screened(req: Request, limit: nat)
  {
    req.httpMethod == "POST" && Admitted(ReadCount(req.cookie), limit)
  }

  /** `profile || {}`. */
  function ProfileOf(f: Fields): Profile
  {
    f.profile.GetOr(NoProfile)
  }

  /** `conversationHistory || []`. */
  function HistoryOf(f: Fields): seq<Turn>
  {
    f.conversationHistory.GetOr([])
  }

  /** The upstream message list: the windowed history, each turn's role and content copied,
      then the current message as a `user` turn. */
  function UpstreamMessages(h: seq<Turn>, message: string): (msgs: seq<Turn>)
    ensures 0 < |msgs| <= WindowSize + 1
    ensures msgs[|msgs| - 1] == Turn(UserRole, message)
    ensures msgs[..|msgs| - 1] == Window(h)
  {
    (if |h| > 0 then Window(h) else []) + [Turn(UserRole, message)]
  }

  function ErrorResponse(status: nat, error: string, detail: Detail): Response
  {
    Response(status, JsonHeaders, ErrorBody(error, detail))
  }

  /** The decision ladder of `fetch` up to the outbound call. */
  function Plan(texts: Texts, limit: nat, req: Request): (d: Decision)
    ensures d.CallUpstream? <==> Screened(req, limit) && req.body.Parsed? && HasMessage(req.body.fields)
    ensures d.CallUpstream? ==> d.count == ReadCount(req.cookie) < limit
    ensures d.CallUpstream? ==>
      d.messages == Window(HistoryOf(req.body.fields)) + [Turn(UserRole, req.body.fields.message.value)]
    ensures d.Respond? ==> CorsHeaders <= d.response.headers
    ensures d.Respond? ==> !d.response.payload.Answer? && d.response.status != 502
    ensures d.Respond? ==> (d.response.status == 200 <==> req.httpMethod == "OPTIONS")
  {
    if req.httpMethod == "OPTIONS" then Respond(Response(200, CorsHeaders, NoBody))
    else if req.httpMethod != "POST" then Respond(ErrorResponse(405, "Method not allowed", NoDetail))
    else
      var count := ReadCount(req.cookie);
      if !Admitted(count, limit) then Respond(ErrorResponse(429, "Rate limit reached", Notice(QuotaNotice)))
      else
        match req.body
        case Unparseable(reason) => Respond(ErrorResponse(500, "Internal server error", Notice(reason)))
        case Parsed(f) =>
          if !HasMessage(f) then Respond(ErrorResponse(400, "Message is required", NoDetail))
          else
            var h := HistoryOf(f);
            var m := f.message.value;
            CallUpstream(Compose(texts, ProfileOf(f), m, h), UpstreamMessages(h, m), count)
  }

  /** The response built from the completion service's reply. */
  function Finish(limit: nat, count: nat, reply: Reply): (r: Response)
    ensures CorsHeaders <= r.headers
    ensures reply.Failed? ==> r.status == 502 && r.payload == ErrorBody("AI service error", UpstreamStatus(reply.status))
    ensures reply.Completed? ==>
              && r.status == 200 && r.payload == Answer(reply.text, limit - count - 1)
              && |r.headers| > 0 && r.headers[|r.headers| - 1] == ("Set-Cookie", SetCookie(count))
  {
    match reply
    case Failed(status) => ErrorResponse(502, "AI service error", UpstreamStatus(status))
    case Completed(text) =>
      Response(200, JsonHeaders + [("Set-Cookie", SetCookie(count))], Answer(text, limit - count - 1))
  }

  /** The completion service's reply to the call the request makes, if it makes one. */
  function Outcome(texts: Texts, limit: nat, upstream: (string, seq<Turn>) -> Reply, req: Request): (o: Option<Reply>)
    ensures o.Some? <==> Plan(texts, limit, req).CallUpstream?
  {
    match Plan(texts, limit, req)
    case Respond(_) => None
    case CallUpstream(system, messages, _) => Some(upstream(system, messages))
  }

  /** The `fetch` handler, with the completion service as `upstream`. */
  function Handle(texts: Texts, limit: nat, upstream: (string, seq<Turn>) -> Reply, req: Request): (r: Response)
    ensures CorsHeaders <= r.headers
    ensures req.httpMethod == "OPTIONS" ==> r == Response(200, CorsHeaders, NoBody)
    ensures r.status == 405 <==> req.httpMethod != "OPTIONS" && req.httpMethod != "POST"
    ensures r.status == 429 <==> req.httpMethod == "POST" && ReadCount(req.cookie) >= limit
    ensures r.status == 500 <==> Screened(req, limit) && req.body.Unparseable?
    ensures r.status == 400 <==> Screened(req, limit) && req.body.Parsed? && !HasMessage(req.body.fields)
    ensures Outcome(texts, limit, upstream, req).None? ==> Plan(texts, limit, req) == Respond(r)
  {
    match Plan(texts, limit, req)
    case Respond(response) => response
    case CallUpstream(system, messages, count) => Finish(limit, count, upstream(system, messages))
  }

  /** Once the completion service is called, its reply decides the response: 502 with its
      status when it fails, otherwise 200 with its text, the remaining allowance and the new
      cookie as the last header. Only a preflight also answers 200. */
  lemma HandleAfterCall(texts: Texts, limit: nat, upstream: (string, seq<Turn>) -> Reply, req: Request)
    ensures var r := Handle(texts, limit, upstream, req);
      var o := Outcome(texts, limit, upstream, req);
      && (r.status == 502 <==> o.Some? && o.value.Failed?)
      && (r.status == 200 <==> req.httpMethod == "OPTIONS" || (o.Some? && o.value.Completed?))
      && (o.Some? && o.value.Failed? ==> r.payload == ErrorBody("AI service error", UpstreamStatus(o.value.status)))
  {
    var d := Plan(texts, limit, req);
    if d.CallUpstream? {
      assert Handle(texts, limit, upstream, req) == Finish(limit, d.count, upstream(d.system, d.messages));
    }
  }

  /** An answer carries the service's text, the allowance left after this message, and the
      cookie recording it. */
  lemma AnswerContents(texts: Texts, limit: nat, upstream: (string, seq<Turn>) -> Reply, req: Request)
    requires Handle(texts, limit, upstream, req).payload.Answer?
    ensures var r := Handle(texts, limit, upstream, req);
      && r.status == 200
      && Outcome(texts, limit, upstream, req) == Some(Completed(r.payload.response))
      && r.payload.messagesRemaining == limit - ReadCount(req.cookie) - 1 >= 0
      && |r.headers| > 0 && r.headers[|r.headers| - 1] == ("Set-Cookie", SetCookie(ReadCount(req.cookie)))
  {
    var d := Plan(texts, limit, req);
    if d.CallUpstream? {
      assert Handle(texts, limit, upstream, req) == Finish(limit, d.count, upstream(d.system, d.messages));
    }
  }

  // ---------------------------------------------------------------------------------------
  // Properties of the whole ladder

  /** An over-quota POST is answered 429 before its body is looked at, so even a request with
      no message gets 429, and the completion service is never consulted: any two services
      give the same response. */
  lemma OverQuotaNeverCallsUpstream(texts: Texts, limit: nat, up1: (string, seq<Turn>) -> Reply,
                                    up2: (string, seq<Turn>) -> Reply, req: Request)
    requires req.httpMethod == "POST" && ReadCount(req.cookie) >= limit
    ensures Outcome(texts, limit, up1, req).None?
    ensures Handle(texts, limit, up1, req) == Handle(texts, limit, up2, req)
      == ErrorResponse(429, "Rate limit reached", Notice(QuotaNotice))
  {
  }

  /** A successful answer carries a cookie that the next request reads as one more than the
      count this request was admitted with. */
  lemma SuccessAdvancesCounter(texts: Texts, limit: nat, upstream: (string, seq<Turn>) -> Reply, req: Request)
    requires Handle(texts, limit, upstream, req).payload.Answer?
    ensures var r := Handle(texts, limit, upstream, req);
      && |r.headers| > 0 && r.headers[|r.headers| - 1].0 == "Set-Cookie"
      && ReadCount(Some(r.headers[|r.headers| - 1].1)) == ReadCount(req.cookie) + 1
      && r.payload.messagesRemaining + ReadCount(req.cookie) + 1 == limit
  {
    AnswerContents(texts, limit, upstream, req);
    SetCookieReadsBack(ReadCount(req.cookie));
  }

  /** The same windowed turns feed both consumers: the message list sent upstream is the window
      followed by the current message, and the system prompt's history section renders exactly
      the turns that precede that message in the list. */
  lemma SameWindowForPromptAndMessages(texts: Texts, limit: nat, req: Request)
    requires Plan(texts, limit, req).CallUpstream?
    ensures var d := Plan(texts, limit, req);
      && d.messages[..|d.messages| - 1] == Window(HistoryOf(req.body.fields))
      && Contains(d.system, RenderTurns(d.messages[..|d.messages| - 1]))
  {
    var f := req.body.fields;
    var d := Plan(texts, limit, req);
    assert d.messages[..|d.messages| - 1] == Window(HistoryOf(f));
    PlanPrompt(texts, limit, req);
    ComposeShowsWindow(texts, ProfileOf(f), f.message.value, HistoryOf(f));
  }

  /** The system prompt of an upstream call is the composed prompt for the request's profile,
      message and history. */
  lemma PlanPrompt(texts: Texts, limit: nat, req: Request)
    requires Plan(texts, limit, req).CallUpstream?
    ensures var f := req.body.fields;
      Plan(texts, limit, req).system == Compose(texts, ProfileOf(f), f.message.value, HistoryOf(f))
  {
  }

  /** Two requests that differ only in turns older than the window get the same decision. */
  lemma PlanDependsOnlyOnWindow(texts: Texts, limit: nat, req: Request, h: seq<Turn>)
    requires req.body.Parsed?
    requires Window(h) == Window(HistoryOf(req.body.fields))
    ensures Plan(texts, limit, req) == Plan(texts, limit, req.(body := Parsed(req.body.fields.(conversationHistory := Some(h)))))
  {
    var f := req.body.fields;
    if Screened(req, limit) && HasMessage(f) {
      ComposeDependsOnlyOnWindow(texts, ProfileOf(f), f.message.value, HistoryOf(f), h);
    }
  }

  /** A stage preparation profile with the side-effects concern and no history, as in the
      message "What about side effects?": the prompt carries the facilitate-action record and
      the side-effects block, and the message list is the message alone. */
  lemma PreparationSideEffectsExample(texts: Texts, limit: nat, cookie: Option<string>, m: string)
    requires ReadCount(cookie) < limit && m != ""
    ensures var p := Profile(Some("preparation"), None, Some(["side_effects"]));
      var req := Request("POST", cookie, Parsed(Fields(Some(m), Some(p), Some([]))));
      && Plan(texts, limit, req) == CallUpstream(Compose(texts, p, m, []), [Turn(UserRole, m)], ReadCount(cookie))
      && StageGuidance(texts, p)
         == StageBlock(texts, texts.upper("preparation"), StrategyRecord("facilitate_action", texts.techniques(Preparation)), DefaultTrust)
      && Guidance(texts.concerns, p.concerns) == GuidanceHeader + Block("side_effects", texts.concerns(SideEffects))
      && Contains(Compose(texts, p, m, []), StageGuidance(texts, p) + Guidance(texts.concerns, p.concerns))
  {
    var p := Profile(Some("preparation"), None, Some(["side_effects"]));
    var f := Fields(Some(m), Some(p), Some([]));
    var req := Request("POST", cookie, Parsed(f));
    assert Screened(req, limit) && HasMessage(f);
    PlanPrompt(texts, limit, req);
    assert ProfileOf(f) == p && HistoryOf(f) == [];
    assert Window([]) + [Turn(UserRole, m)] == [Turn(UserRole, m)];
    PreparationStage(texts);
    SideEffectsGuidance(texts.concerns);
    ComposeShowsSections(texts, p, m, []);
  }

  lemma PreparationStage(texts: Texts)
    ensures StageGuidance(texts, Profile(Some("preparation"), None, Some(["side_effects"])))
      == StageBlock(texts, texts.upper("preparation"), StrategyRecord("facilitate_action", texts.techniques(Preparation)), DefaultTrust)
  {
  }

  lemma SideEffectsGuidance(records: ConcernTag -> ConcernRecord)
    ensures Guidance(records, Some(["side_effects"])) == GuidanceHeader + Block("side_effects", records(SideEffects))
  {
    assert Blocks(records, ["side_effects"]) == Block("side_effects", records(SideEffects));
  }
  // ---------------------------------------------------------------------------------------
  // The handler as written: the prompt is built with both lookups going through the object
  // literal, and an inherited stage name throws inside the `try`, which answers 500.

  /** The message of the `TypeError` the runtime raises for `strategy.techniques.map` when
      `techniques` is undefined, as the 500 body reports it. */
  const TechniquesError: string := "Cannot read properties of undefined (reading 'map')"

  /** The `fetch` handler as written. */
  function HandleAsWritten(texts: Texts, limit: nat, upstream: (string, seq<Turn>) -> Reply, req: Request): (r: Response)
    ensures CorsHeaders <= r.headers
    ensures Outcome(texts, limit, upstream, req).None? ==> r == Handle(texts, limit, upstream, req)
    ensures Plan(texts, limit, req).CallUpstream? && EffectiveStage(ProfileOf(req.body.fields).stage) in InheritedNames ==>
              r == ErrorResponse(500, "Internal server error", Notice(TechniquesError))
  {
    match Plan(texts, limit, req)
    case Respond(response) => response
    case CallUpstream(_, messages, count) =>
      var f := req.body.fields;
      match ComposeAsWritten(texts, ProfileOf(f), f.message.value, HistoryOf(f))
      case None => ErrorResponse(500, "Internal server error", Notice(TechniquesError))
      case Some(system) => Finish(limit, count, upstream(system, messages))
  }

  /** When neither the stage nor any concern is named after an `Object.prototype` member, the
      handler as written and the corrected handler give the same response. */
  lemma HandleAsWrittenAgrees(texts: Texts, limit: nat, upstream: (string, seq<Turn>) -> Reply, req: Request)
    requires req.body.Parsed? ==> OffPrototype(ProfileOf(req.body.fields))
    ensures HandleAsWritten(texts, limit, upstream, req) == Handle(texts, limit, upstream, req)
  {
    var d := Plan(texts, limit, req);
    if d.CallUpstream? {
      var f := req.body.fields;
      PlanPrompt(texts, limit, req);
      ComposeAsWrittenAgrees(texts, ProfileOf(f), f.message.value, HistoryOf(f));
      assert Handle(texts, limit, upstream, req) == Finish(limit, d.count, upstream(d.system, d.messages));
    }
  }

  /** As written, a screened POST answers 500 exactly when its body is not JSON, or it has a
      message and its stage is named after an `Object.prototype` member. */
  lemma HandleAsWritten500(texts: Texts, limit: nat, upstream: (string, seq<Turn>) -> Reply, req: Request)
    ensures HandleAsWritten(texts, limit, upstream, req).status == 500 <==>
      Screened(req, limit)
      && (req.body.Unparseable?
          || (HasMessage(req.body.fields) && EffectiveStage(ProfileOf(req.body.fields).stage) in InheritedNames))
  {
    var d := Plan(texts, limit, req);
    if d.CallUpstream? {
      var f := req.body.fields;
      match ComposeAsWritten(texts, ProfileOf(f), f.message.value, HistoryOf(f))
      case None =>
      case Some(system) =>
        assert HandleAsWritten(texts, limit, upstream, req) == Finish(limit, d.count, upstream(system, d.messages));
    }
  }

  /** An admitted POST with a message and the stage `constructor` gets 500 as written, where the
      corrected handler calls the completion service. */
  lemma ConstructorStageAnswers500AsWritten(texts: Texts, limit: nat, upstream: (string, seq<Turn>) -> Reply,
                                            cookie: Option<string>, m: string)
    requires ReadCount(cookie) < limit && m != ""
    ensures var req := Request("POST", cookie, Parsed(Fields(Some(m), Some(Profile(Some("constructor"), None, None)), None)));
      && HandleAsWritten(texts, limit, upstream, req) == ErrorResponse(500, "Internal server error", Notice(TechniquesError))
      && Outcome(texts, limit, upstream, req).Some?
  {
    var req := Request("POST", cookie, Parsed(Fields(Some(m), Some(Profile(Some("constructor"), None, None)), None)));
    assert Screened(req, limit) && HasMessage(req.body.fields);
    assert EffectiveStage(ProfileOf(req.body.fields).stage) == "constructor";
    assert "constructor" == InheritedNames[0];
  }
}
